=== FILE: README.md ===
# FieldSync admin dashboard — a Dafny model of its decision logic

The admin dashboard of FieldSync (NetCovet) is a React front end. Most of
it is UI glue. The logic that decides things is written inline in event
handlers and effects, and this project pulls it out as pure functions over
immutable data, then proves what those functions promise:

- **Chat message lists.** The project models all three revisions of the
  chat:
  - the optimistic container `chat/ChatLayout.jsx`;
  - the single-component `chat/ChatWindow.jsx`;
  - the legacy, non-optimistic `ChatWindow.jsx`.

  It covers the inbound filter, the reconciliation of an optimistic entry
  with the server copy by `tempId`, the optimistic append on send and its
  rollback, presence, room joining and the enable flag.
- **Compose and attachment gates.** These are the 5 MB limit and send
  button of `ChatInput`, and the MIME whitelists of the two chat windows.
  `FileDisplay` gets its fetch decision, its proxy URL, and its
  mounted-flag and blob-revoke lifecycle as a small state machine, plus
  its render choice.
- **Display selection.** This covers the sender label, content flags and
  reply preview of `MessageBubble`, and the title and presence dot of
  `ChatHeader`.
- **Forms.** The project models:
  - the ticket form's validation, expertise toggle and address pick;
  - the user form's generic change and role change;
  - the spreadsheet import: the file gate, header row, row mapping,
    empty-row filter and row-to-ticket mapping.
- **Ticket and auth predicates.** These are `canPay` and the button
  visibility of the details dialog, the badge, colour, chips and status
  menu of the ticket card, the login role gate, and the token-guarded
  routes of the application shell.

JavaScript values are modelled explicitly. `Js.Maybe` keeps `undefined`,
`null` and a present value apart, because the source compares with `===`.
`Js.Truthy` is JavaScript truthiness. `Js.Str` is how a template
literal renders a value, and `Js.JsxText` how JSX renders it as a child
(`undefined` and `null` show as nothing). `Js.Trim` strips JavaScript white space.

The asynchronous edges become explicit inputs to the transitions:
- socket events and acknowledgements;
- `FileReader` results;
- `URL.createObjectURL` results;
- the clock.

Each module follows one source file. `ChatModel` holds the records and
reducers that both optimistic revisions share. `Tickets` holds the
ticket record.

## Model

| member | source | states |
|---|---|---|
| ChatModel.TargetOf | src/components/chat/ChatLayout.jsx:81-84 | a chat is a direct target iff its `fullName` is truthy; either way the room id is its `_id` |
| ChatModel.JoinEvent | src/components/chat/ChatLayout.jsx:82 | the join event is `joinDirectChatRoom` exactly for a direct target, `joinTicketRoom` otherwise |
| ChatModel.TempId | src/components/chat/ChatLayout.jsx:107 | the temporary id is the user id, a dash, then the clock reading, and both parts can be read back |
| ChatModel.JoinFollowUps | src/components/chat/ChatLayout.jsx:86-96 | a refused join asks for nothing; an accepted one fetches the history first, and asks for the counterpart's status iff the target is direct |
| ChatModel.OutgoingFor | src/components/chat/ChatLayout.jsx:106-115 | the payload carries `receiverId` only for a direct target and `ticketId` only for a ticket target (the other is `null`), with the conversation id, text and temporary id |
| ChatModel.Optimistic | src/components/chat/ChatLayout.jsx:118-129 | the optimistic entry has `_id` = `tempId` = the temporary id, is flagged optimistic, is sent as "You", and has a file key (the blob URL) iff a file was attached |
| ChatModel.FindClaim | src/components/chat/ChatLayout.jsx:54 | `findIndex` returns the first claiming position, and none when no entry claims the message |
| ChatModel.Reconcile | src/components/chat/ChatLayout.jsx:53-61 | if some entry claims the message, the first such entry is replaced in place; otherwise the message is appended after the unchanged list |
| ChatModel.FindClaimRevisionsAgree | src/components/chat/ChatWindow.jsx:59 | for an inbound message with a truthy tempId, the guarded and the plain `===` match pick the same entry |
| ChatModel.ReconcileRevisionsAgree | src/components/chat/ChatWindow.jsx:57-67 | for an inbound message with a truthy tempId, both revisions' reducers give the same list |
| ChatModel.RemoveId | src/components/chat/ChatLayout.jsx:136 | the rollback filter keeps exactly the entries whose `_id` is not the temporary id |
| ChatModel.RemoveIdAppend | src/components/chat/ChatLayout.jsx:136 | filtering distributes over concatenation, so the survivors keep their order |
| ChatModel.RemoveIdAbsent | src/components/chat/ChatLayout.jsx:136 | a list without the id passes the filter unchanged |
| ChatModel.RollbackUndoesAppend | src/components/chat/ChatLayout.jsx:130-137 | rolling back an appended entry restores the list it was appended to |
| ChatModel.SetPresence | src/components/chat/ChatLayout.jsx:65-66 | a presence update sets one user's entry and keeps every other entry |
| ChatLayout.Init | src/components/chat/ChatLayout.jsx:18-23 | the container starts with no chat, no messages, no presence and a `null` conversation id |
| ChatLayout.Receive | src/components/chat/ChatLayout.jsx:51-63 | a message of another conversation leaves the state unchanged; otherwise the first entry with a truthy, equal tempId is replaced in place, or the message is appended |
| ChatLayout.UntaggedInboundIsAppended | src/components/chat/ChatLayout.jsx:54-60 | an inbound message without a truthy tempId is always appended after the unchanged list |
| ChatLayout.UserOnline | src/components/chat/ChatLayout.jsx:65 | `userOnline` marks that user online and keeps every other entry |
| ChatLayout.UserOffline | src/components/chat/ChatLayout.jsx:66 | `userOffline` marks that user offline and keeps every other entry |
| ChatLayout.LastPresenceEventWins | src/components/chat/ChatLayout.jsx:65-66 | of two presence events for the same user, the later decides |
| ChatLayout.OnSelection | src/components/chat/ChatLayout.jsx:74-86 | without a socket or a chat the list is emptied and the id cleared; otherwise exactly one join of the chat's room is emitted and nothing changes yet |
| ChatLayout.OnJoinAck | src/components/chat/ChatLayout.jsx:86-100 | a join reply leaves the state alone; success fetches the history first and then, for a direct chat only, asks for that user's status as the second request; failure asks for nothing |
| ChatLayout.OnHistory | src/components/chat/ChatLayout.jsx:88-91 | the history reply replaces the list and sets the conversation id, and keeps chat and presence |
| ChatLayout.JoinedChatShowsItsHistory | src/components/chat/ChatLayout.jsx:74-91 | selecting a chat, an accepted join and the history reply leave that chat selected with the fetched history under the reply's conversation id; the join names the chat's room and the accepted join asks for its history |
| ChatLayout.OnUserStatus | src/components/chat/ChatLayout.jsx:93-95 | the status reply sets the presence entry keyed by the chat's id as text |
| ChatLayout.SendMessage | src/components/chat/ChatLayout.jsx:103-133 | no socket, no chat, or blank text without a file gives no change and no emit; otherwise exactly one optimistic entry is appended after the unchanged list and one emit carries the trimmed text, the temporary id, and the receiver or ticket id by target kind |
| ChatLayout.OnSendAck | src/components/chat/ChatLayout.jsx:133-137 | a successful ack leaves the state unchanged; a failed one removes exactly the entries whose `_id` is the temporary id and keeps the others in their order |
| ChatLayout.EchoReplacesOptimisticEntry | src/components/chat/ChatLayout.jsx:51-61 | after a send, the server's copy takes the optimistic entry's place: the list is the earlier list plus the copy |
| ChatLayout.FailedAckUndoesSend | src/components/chat/ChatLayout.jsx:130-137 | a send followed by a failed ack leaves exactly the state before the send |
| ChatLayout.EnterOnEmptyComposeSendsNothing | src/components/chat/ChatInput.jsx:81 | Enter on an empty compose bar reaches the container, whose guard turns it into a no-op |
| ChatWindow.Init | src/components/chat/ChatWindow.jsx:16-25 | the window starts disabled, with no messages, no compose text, no file and a `null` conversation id |
| ChatWindow.Receive | src/components/chat/ChatWindow.jsx:54-69 | a message of another conversation leaves the state unchanged; otherwise the first entry whose tempId is `===` the inbound one is replaced in place, or the message is appended |
| ChatWindow.UntaggedInboundOverwritesHistory | src/components/chat/ChatWindow.jsx:59-63 | an inbound message without tempId replaces a history entry without tempId, and that entry is lost |
| ChatWindow.TaggedInboundAsInGuardedRevision | src/components/chat/ChatWindow.jsx:59-66 | for a message with a truthy tempId this revision behaves exactly like the guarded one |
| ChatWindow.Presence | src/components/chat/ChatWindow.jsx:71-77 | `userOnline` and `userOffline` (and the status reply) set one user's entry and keep every other entry |
| ChatWindow.PresenceAsInContainer | src/components/chat/ChatWindow.jsx:109-111 | presence events and the status reply leave the same map as in the ChatLayout revision |
| ChatWindow.OnSelection | src/components/chat/ChatWindow.jsx:88-101 | without a socket or a chat the window is disabled, emptied and the id cleared; otherwise one join is emitted |
| ChatWindow.OnJoinAck | src/components/chat/ChatWindow.jsx:101-117 | join success enables the window, join failure disables it; only success asks for anything: the history first and then, for a direct chat only, that user's status as the second request |
| ChatWindow.JoinedChatShowsItsHistory | src/components/chat/ChatWindow.jsx:88-117 | for a chosen chat the selection joins its room, an accepted join enables the window and asks for the history first, and the reply leaves the window enabled showing exactly that history under its conversation id; a refused join leaves it disabled and asks for nothing |
| ChatWindow.OnHistory | src/components/chat/ChatWindow.jsx:103-106 | the history reply replaces the list and sets the id, and keeps the enable flag and presence |
| ChatWindow.SelectFile | src/components/chat/ChatWindow.jsx:123-139 | no file, or a type outside jpeg/png/gif/pdf, leaves the selection and preview untouched; an accepted PDF is previewed by name at once, and an accepted image becomes the selection with the preview left as it was until the reader finishes |
| ChatWindow.OnPreviewRead | src/components/chat/ChatWindow.jsx:134 | the reader's `onloadend` sets the preview to the data URL and changes nothing else, whatever the selection is by then |
| ChatWindow.OnPreviewReadGuarded | src/components/chat/ChatWindow.jsx:131-135 | corrected reader completion: the data URL becomes the preview only while the file that was read is still selected; otherwise nothing changes |
| ChatWindow.ClearAttachment | src/components/chat/ChatWindow.jsx:285 | the X button drops the file and its preview and keeps everything else |
| ChatWindow.Send | src/components/chat/ChatWindow.jsx:141-173 | no socket, a disabled chat, or blank text without a file gives no change; otherwise one optimistic entry is appended, compose text, file and preview are cleared, and one `sendMessage` emit is made carrying the temporary id, the trimmed text and the conversation id, addressed to the contact (no ticket id) for a direct chat and to the ticket (no receiver id) for a ticket room |
| ChatWindow.SendWithoutChatTargetsUndefinedTicket | src/components/chat/ChatWindow.jsx:144-150 | an enabled send with no active chat addresses ticket `undefined` and receiver `null` |
| ChatWindow.OnSendAck | src/components/chat/ChatWindow.jsx:176-181 | only the list can change; a successful ack keeps it; after a failed one an entry is present iff it was present before and its `_id` is not the temporary id, and the list is the rollback filter of the old list |
| ChatWindow.FailedAckRestoresListOnly | src/components/chat/ChatWindow.jsx:169-181 | a failed ack restores the list but not the cleared compose text, file or preview |
| ChatWindow.SendBeforeReadLeavesStalePreview | src/components/chat/ChatWindow.jsx:131-172 | an image picked and sent before its read completes: the late `onloadend` shows a preview while no file is selected |
| ChatWindow.PreviewHasFileInvariant | src/components/chat/ChatWindow.jsx:123-285 | with the guarded reader, selecting, clearing, the reader's completion, sending and the send ack keep every preview tied to a selected file |
| ChatWindow.KeyPress | src/components/chat/ChatWindow.jsx:296 | Enter sends unless the chat is disabled; any other key does nothing |
| ChatWindow.SendButtonMatchesGuard | src/components/chat/ChatWindow.jsx:300 | with a socket, the send button is disabled exactly when a send would do nothing |
| ChatInput.Init | src/components/chat/ChatInput.jsx:9-11 | the compose bar starts with no text, no file and no preview |
| ChatInput.SelectFile | src/components/chat/ChatInput.jsx:14-29 | no file or a file over 5 MiB changes nothing; any other file is taken whatever its type, previewed by object URL if it is an image and by name otherwise |
| ChatInput.SizeLimitIsInclusive | src/components/chat/ChatInput.jsx:18 | a file of exactly 5242880 bytes is accepted and one byte more is refused |
| ChatInput.ClearFile | src/components/chat/ChatInput.jsx:31-35 | clearing drops file and preview and keeps the text |
| ChatInput.HandleSend | src/components/chat/ChatInput.jsx:37-41 | the untrimmed text and the file are forwarded, then the whole bar is reset |
| ChatInput.PreviewHasFileInvariant | src/components/chat/ChatInput.jsx:9-41 | the object-URL preview is made in the selection step, so the initial bar, selecting, clearing and sending all keep a preview only while a file is attached |
| ChatInput.KeyPress | src/components/chat/ChatInput.jsx:81 | Enter forwards the bar's content with no emptiness check; other keys forward nothing |
| LegacyChatWindow.Receive | src/components/ChatWindow.jsx:44-55 | with a selected contact a message is appended iff it is between that contact and me in either direction; with none, iff I sent it; otherwise the list is unchanged |
| LegacyChatWindow.OnContext | src/components/ChatWindow.jsx:87-97 | an engineer is enabled iff the ticket exists, is assigned to them and is not Closed; any other role iff a contact is selected; only an enabled engineer triggers a user fetch |
| LegacyChatWindow.EnableDependsOnRoleOnly | src/components/ChatWindow.jsx:88-96 | the selection does not matter for an engineer, and the ticket does not matter for other roles |
| LegacyChatWindow.ClosedTicketDisablesEngineer | src/components/ChatWindow.jsx:89 | a Closed ticket disables an engineer's chat |
| LegacyChatWindow.FetchHistory | src/components/ChatWindow.jsx:99-117 | history is requested iff there is a socket and a contact; the request carries a cutoff iff the role is Engineer (`null` otherwise), and a missing ticket gives ticket id `undefined` |
| LegacyChatWindow.FetchedPairMatchesLiveFilter | src/components/ChatWindow.jsx:44-117 | every message between me and the contact the history request names, in either direction, is also accepted by the live receive filter |
| LegacyChatWindow.OnHistory | src/components/ChatWindow.jsx:111-113 | the history reply replaces the list |
| LegacyChatWindow.SelectFile | src/components/ChatWindow.jsx:123-144 | the whitelist also admits `image/jpg`; a rejected file clears both selection and preview; an accepted PDF clears the preview, and an accepted image leaves it as it was until the reader finishes |
| LegacyChatWindow.OnPreviewRead | src/components/ChatWindow.jsx:136-138 | the reader's `onloadend` sets the preview to the data URL and changes nothing else, whatever the selection is by then |
| LegacyChatWindow.StalePreviewOutlivesFile | src/components/ChatWindow.jsx:123-270 | with an earlier image's preview on screen, a new image picked and cleared with its X before the read completes: the late `onloadend` shows a preview with no file selected |
| LegacyChatWindow.OnPreviewReadGuarded | src/components/ChatWindow.jsx:133-139 | corrected reader completion: the data URL becomes the preview only while the file that was read is still selected; otherwise nothing changes |
| LegacyChatWindow.ClearAttachment | src/components/ChatWindow.jsx:270 | the close button drops both the file and its preview |
| LegacyChatWindow.DataUrlPayload | src/components/ChatWindow.jsx:155 | `split(',')[1]` is `undefined` exactly when the data URL has no comma; otherwise it is a comma-free piece |
| LegacyChatWindow.DataUrlPayloadOf | src/components/ChatWindow.jsx:155 | for `header,payload` with comma-free parts the file data is `payload`, also when a second comma and more text follow: it is the text between the first and second commas |
| LegacyChatWindow.Send | src/components/ChatWindow.jsx:146-190 | the local list is never changed; a send happens only with socket, contact, enabled chat and content; a file send clears text, file and preview, a text send clears only the text |
| LegacyChatWindow.PreviewHasFileInvariant | src/components/ChatWindow.jsx:123-270 | with the guarded reader, selecting, clearing, the reader's completion and sending never leave a preview without a selected file |
| LegacyChatWindow.EchoOfSendIsAppended | src/components/ChatWindow.jsx:44-55 | the server's echo of a message I just sent passes the filter and shows up once, at the end |
| LegacyChatWindow.KeyPress | src/components/ChatWindow.jsx:295-300 | only Enter can send, and never while the chat is disabled |
| LegacyChatWindow.EnterIsSend | src/components/ChatWindow.jsx:295-300 | the Enter key's own guard adds nothing to `sendMessage`'s guard |
| LegacyChatWindow.Title | src/components/ChatWindow.jsx:227 | the header prompts for a user when none is selected, else names the contact |
| FileDisplay.ProxyUrl | src/components/FileDisplay.jsx:27 | the proxy URL starts with the base and `/files/`, and its length is the parts' lengths plus the fixed separators |
| FileDisplay.ParseProxyUrl | src/components/FileDisplay.jsx:27 | a key read back from a proxy URL contains no `?` |
| FileDisplay.ProxyUrlRoundTrip | src/components/FileDisplay.jsx:27 | for a key without `?`, reading the proxy URL gives back exactly the key and the conversation id |
| FileDisplay.Decide | src/components/FileDisplay.jsx:13-32 | skip iff file key, token or conversation id is missing; use the key directly iff the message is optimistic and the key starts with `blob:`; else fetch the proxy URL with a bearer header |
| FileDisplay.Start | src/components/FileDisplay.jsx:9-26 | a skip ends loading, a local blob is shown at once, and only a fetch leaves the run waiting, with nothing revoked |
| FileDisplay.OnCleanup | src/components/FileDisplay.jsx:52-56 | cleanup clears the mounted flag and revokes the run's own URL only if it starts with `blob:` |
| FileDisplay.Step | src/components/FileDisplay.jsx:34-47 | after cleanup no event touches the view; a response while mounted ends loading and stores the created URL only if it is ok |
| FileDisplay.UnmountedRunKeepsView | src/components/FileDisplay.jsx:41-46 | once unmounted, any sequence of events leaves the view unchanged |
| FileDisplay.RevokesOwnBlobOnlyInvariant | src/components/FileDisplay.jsx:52-56 | across any events a run revokes at most one URL, its own `tempURL`, a blob URL, and only after unmounting |
| FileDisplay.StartRevokesNothing | src/components/FileDisplay.jsx:9-56 | from its start, a run only ever revokes its own blob URL |
| FileDisplay.LateBlobIsLeaked | src/components/FileDisplay.jsx:39-56 | when cleanup precedes the response, the created blob URL is neither stored nor revoked |
| FileDisplay.StepFixed | src/components/FileDisplay.jsx:39-41 | as written while mounted; a blob created after cleanup is revoked at once |
| FileDisplay.FixedRunNeverLeaks | src/components/FileDisplay.jsx:39-56 | with the fix, a settled unmounted run has revoked any blob URL it made, for every event sequence |
| FileDisplay.FixedEffectNeverLeaks | src/components/FileDisplay.jsx:9-58 | with the fix, no run of the effect leaks a blob URL |
| FileDisplay.NameOr | src/components/FileDisplay.jsx:67 | the file name when truthy, otherwise the fallback caption |
| FileDisplay.RenderOf | src/components/FileDisplay.jsx:60-125 | loading shows the placeholder; else no URL shows nothing; else an `image/` type shows the image; else a link, always to the stored URL |
| FileDisplay.SkipRendersNothing | src/components/FileDisplay.jsx:14-73 | a message without a file key renders nothing once the effect has run |
| FileDisplay.FailedFetchRendersNothing | src/components/FileDisplay.jsx:34-73 | a failed fetch ends loading with no URL, so nothing is rendered |
| FileDisplay.OptimisticAttachmentShownLocally | src/components/FileDisplay.jsx:20-24 | the attachment of an optimistic send is shown from its own blob URL without a fetch |
| MessageBubble.SenderField | src/components/chat/MessageBubble.jsx:37 | a missing sender yields `undefined` for either field |
| MessageBubble.SenderLabel | src/components/chat/MessageBubble.jsx:37 | my own messages are labelled "You"; others as the rendered full name, " (", the role and ")" |
| MessageBubble.MissingSenderLabel | src/components/chat/MessageBubble.jsx:37 | a message without sender is labelled "undefined (undefined)" |
| MessageBubble.ReplyContent | src/components/chat/MessageBubble.jsx:39-71 | a preview exists iff `replyTo._id` is truthy; the sender defaults to "User"; the content is the text, else "Image" or "File" for an attachment, else "No content" |
| MessageBubble.ReplyPreviewNeverBlank | src/components/chat/MessageBubble.jsx:42-71 | a reply preview never shows an empty sender or content line |
| MessageBubble.BubbleOf | src/components/chat/MessageBubble.jsx:11-152 | the caption appears iff the message is not mine; the file block iff `fileKey` is truthy; the text block iff `text` is truthy; opacity is 60% for optimistic entries |
| MessageBubble.OptimisticEntryBubble | src/components/chat/MessageBubble.jsx:83-152 | an entry just sent is faded and shows a file block iff a file was attached, and a text block iff its trimmed text is not empty |
| ChatHeader.TitleOf | src/components/chat/ChatHeader.jsx:6-22 | no chat gives "Select a chat"; a chat with a truthy name shows the name with the dot on iff its presence entry is true; any other chat "Ticket #" and the ticket number |
| ChatHeader.TitleMatchesTarget | src/components/chat/ChatHeader.jsx:9 | the header shows a person exactly for the chats the container joins as direct |
| ChatHeader.UnknownUserIsOffline | src/components/chat/ChatHeader.jsx:10-15 | a user with no presence entry is shown offline |
| ChatHeader.PresenceEventsDriveTheDot | src/components/chat/ChatHeader.jsx:10 | the dot follows presence events for the chat's user and ignores those for anyone else |
| ChatHeader.StatusReplyDrivesTheDot | src/components/chat/ChatHeader.jsx:10 | the status reply for the chat's own id sets the dot |
| TicketCreationForm.InitialForm | src/components/TicketCreationForm.jsx:18-25 | the form starts empty, with no expertise and one required engineer |
| TicketCreationForm.InitialCoordinates | src/components/TicketCreationForm.jsx:27 | coordinates start missing |
| TicketCreationForm.HandleChange | src/components/TicketCreationForm.jsx:30-32 | a change sets only the named field |
| TicketCreationForm.RemoveAll | src/components/TicketCreationForm.jsx:38 | the filter removes every occurrence of the value and keeps every other entry |
| TicketCreationForm.RemoveAllAppend | src/components/TicketCreationForm.jsx:38 | the filter distributes over concatenation, so the kept entries keep their order |
| TicketCreationForm.Toggle | src/components/TicketCreationForm.jsx:34-41 | the value is present afterwards iff it was absent before; other values keep their membership; an absent value is appended |
| TicketCreationForm.ToggleTwiceRestores | src/components/TicketCreationForm.jsx:37-39 | toggling an absent value twice restores the list |
| TicketCreationForm.ToggleExpertise | src/components/TicketCreationForm.jsx:34-41 | the toggle changes only the expertise list |
| TicketCreationForm.PlaceSelect | src/components/TicketCreationForm.jsx:43-46 | a picked place sets the address and both coordinates together |
| TicketCreationForm.Submit | src/components/TicketCreationForm.jsx:48-82 | a ticket is submitted iff no name, address or description is blank, the amount is not empty, the latitude is present and nonzero, expertise is not empty and at least one engineer is required; fields go untrimmed and the submitted engineer count is the number entered; `companyId` is attached iff the role is Company Admin with a truthy id; the flag is cleared either way |
| TicketCreationForm.InitialFormIsRejected | src/components/TicketCreationForm.jsx:18-67 | the untouched form is never submitted |
| TicketCreationForm.ZeroLatitudeIsRejected | src/components/TicketCreationForm.jsx:59 | latitude 0 counts as missing |
| TicketCreationForm.ZeroAmountIsAccepted | src/components/TicketCreationForm.jsx:58 | amount "0" passes, since only emptiness is checked |
| TicketCreationForm.PlaceSelectDecidesLatitude | src/components/TicketCreationForm.jsx:43-59 | after a pick, the latitude check depends only on the picked place |
| UserCreationForm.InitialForm | src/components/UserCreationForm.jsx:13-19 | every field starts as the empty string |
| UserCreationForm.HandleChange | src/components/UserCreationForm.jsx:38-40 | a change sets the named field and keeps all others |
| UserCreationForm.HandleRoleChange | src/components/UserCreationForm.jsx:42-48 | the role is set; the company is kept iff the new role is Company Admin and cleared otherwise; name, email and password are kept |
| UserCreationForm.SelectCompany | src/components/UserCreationForm.jsx:104 | the company select sets only the company |
| UserCreationForm.NoHiddenCompanyInvariant | src/components/UserCreationForm.jsx:38-104 | every input the form renders keeps a hidden company field empty |
| UserCreationForm.InitialFormHasNoHiddenCompany | src/components/UserCreationForm.jsx:13-19 | the initial form has no hidden company |
| UserCreationForm.RoleRoundTripClearsCompany | src/components/UserCreationForm.jsx:46 | switching away from Company Admin and back loses the company |
| BulkTicketUpload.HeaderNames | src/components/BulkTicketUploadModal.jsx:105 | header names are non-empty and trimmed, and every header cell that names a column contributes its trimmed name |
| BulkTicketUpload.HeaderNamesAppend | src/components/BulkTicketUploadModal.jsx:105 | the names of a header row are the names of its parts in order, so the list follows the columns left to right |
| BulkTicketUpload.HeaderNamesOfOneCell | src/components/BulkTicketUploadModal.jsx:105 | one cell contributes its trimmed name iff it is truthy and not white space only, and nothing otherwise |
| BulkTicketUpload.HeaderNamesFromCells | src/components/BulkTicketUploadModal.jsx:105 | every header name is the trimmed name of some cell that names a column |
| BulkTicketUpload.HeadersAlignWithoutBlanks | src/components/BulkTicketUploadModal.jsx:105 | when every header cell names a column, there is one trimmed name per column, in column order |
| BulkTicketUpload.MapRow | src/components/BulkTicketUploadModal.jsx:113-125 | the row's keys are exactly the headers that have a cell; each key holds the cell under its last occurrence; cells past the header list are ignored |
| BulkTicketUpload.DistinctHeadersKeepColumns | src/components/BulkTicketUploadModal.jsx:117-121 | with distinct headers, each column's cell is stored under its own header |
| BulkTicketUpload.InteriorBlankHeaderDropped | src/components/BulkTicketUploadModal.jsx:105 | a header cell that names no column is dropped wherever it stands, and the names on either side close up |
| BulkTicketUpload.InteriorBlankHeaderShifts | src/components/BulkTicketUploadModal.jsx:105-121 | with distinct names and one blank header cell, every name written to the right of the blank holds the value of the column just left of it: later columns shift one header left |
| BulkTicketUpload.ZeroKeepsRow | src/components/BulkTicketUploadModal.jsx:129 | a 0 or `false` keeps a row, an empty string does not |
| BulkTicketUpload.KeptRows | src/components/BulkTicketUploadModal.jsx:101-137 | every kept row passes the empty-row test, and every mapped row that passes it is kept |
| BulkTicketUpload.KeptRowsFromSheet | src/components/BulkTicketUploadModal.jsx:113-131 | every kept entry is the mapping of some data row and passes the empty-row test |
| BulkTicketUpload.KeptRowsAppend | src/components/BulkTicketUploadModal.jsx:101-137 | keeping rows follows sheet order: a longer sheet keeps the earlier rows' results first |
| BulkTicketUpload.Lookup | src/components/BulkTicketUploadModal.jsx:153-160 | a lookup finds a value iff the header is a key, and then finds its cell |
| BulkTicketUpload.ExpertiseOf | src/components/BulkTicketUploadModal.jsx:157 | a missing or falsy cell gives no entries; for a truthy cell every non-blank comma-separated piece shows up trimmed, and the entries are non-empty, comma-free and trimmed (their order is `ExpertiseKeepsPieceOrder`) |
| BulkTicketUpload.ExpertiseFromCell | src/components/BulkTicketUploadModal.jsx:157 | every expertise entry is a non-blank piece of the truthy cell between commas, trimmed |
| BulkTicketUpload.ExpertiseKeepsPieceOrder | src/components/BulkTicketUploadModal.jsx:157 | the entries follow the cell's text: the trimmed piece before the first comma, unless blank, comes first and the rest's entries follow |
| BulkTicketUpload.ExpertiseRoundTrip | src/components/BulkTicketUploadModal.jsx:157 | a cell holding clean names written out with commas gives exactly those names back, in order |
| Js.TrimNonBlankAppend | src/components/BulkTicketUploadModal.jsx:157 | trimming and dropping blank pieces follows the pieces in order: the result for two lists one after the other is their two results one after the other |
| Js.TrimNonBlankOfOne | src/components/BulkTicketUploadModal.jsx:157 | one piece gives its trimmed form, or nothing when it is blank |
| Js.CommaListAfterHead | src/components/BulkTicketUploadModal.jsx:157 | splitting on commas, trimming and dropping blanks keeps text order: the first piece's entry, unless blank, precedes all entries of the rest |
| Js.CommaListSpacedRoundTrip | src/components/TicketDetailsModal.jsx:75 | clean entries written out with ", ", as the details dialog shows expertise, read back through the comma split, trim and blank filter as exactly the same list |
| BulkTicketUpload.ToTicket | src/components/BulkTicketUploadModal.jsx:151-166 | company name, site address, work description, amount, latitude and longitude are the row's cells under those headers (none when missing), expertise is `ExpertiseOf`, and `companyId` is carried iff the role is Company Admin with a truthy id |
| BulkTicketUpload.ColumnReachesTicket | src/components/BulkTicketUploadModal.jsx:113-166 | with distinct headers, the cell under a field's header reaches that field of the ticket, and a sheet without an Amount header gives no amount |
| BulkTicketUpload.FileChange | src/components/BulkTicketUploadModal.jsx:34-49 | only an .xlsx file replaces the selection; anything else keeps the previous one |
| BulkTicketUpload.HandleUpload | src/components/BulkTicketUploadModal.jsx:53-173 | no file is refused before reading; a missing worksheet is refused; a sheet with no kept rows is refused; otherwise one ticket per kept row, in order |
| BulkTicketUpload.BlankRowsAreRefused | src/components/BulkTicketUploadModal.jsx:129-145 | a sheet whose data cells are all `null` or empty is refused, whatever its header |
| BulkTicketUpload.BlankRowMapsBlank | src/components/BulkTicketUploadModal.jsx:121 | every value in a mapped row comes from a cell of that row |
| BulkTicketUpload.KeptRowsNone | src/components/BulkTicketUploadModal.jsx:129-145 | if no mapped row passes the test, nothing is kept |
| TicketDetailsModal.PaidTicketCannotPay | src/components/TicketDetailsModal.jsx:55 | a paid ticket can never be paid, whatever its status |
| TicketDetailsModal.DisplayValue | src/components/TicketDetailsModal.jsx:28 | an empty value shows as "N/A", any other as itself |
| TicketDetailsModal.DisplaySlot | src/components/TicketDetailsModal.jsx:28-74 | a falsy value shows as "N/A" |
| TicketDetailsModal.ExpertiseValue | src/components/TicketDetailsModal.jsx:28-75 | the entries joined by ", " when that join is non-empty, and "N/A" when it is empty, as for no entries or a single empty entry |
| TicketDetailsModal.SeveralEntriesNeverShowNA | src/components/TicketDetailsModal.jsx:28-75 | with two or more entries the join holds a separator, so the item shows the join and never "N/A" |
| TicketDetailsModal.AmountValue | src/components/TicketDetailsModal.jsx:73 | the amount never falls back to "N/A": it is the rupee sign followed by the rendered amount, even when missing |
| TicketDetailsModal.AssignedTo | src/components/TicketDetailsModal.jsx:76-82 | "Assigned To" appears iff the personnel list exists and is non-empty, and shows only its first entry |
| TicketDetailsModal.RequestRows | src/components/TicketDetailsModal.jsx:100-107 | one row per access request, in order, captioned `name (employee id)` as JSX text; a row has an Assign button iff the role is Admin or NetCovet Manager, and the button assigns that user to this ticket |
| TicketDetailsModal.RequestCaption | src/components/TicketDetailsModal.jsx:102 | a missing employee id shows as empty parentheses, a missing name leaves only the parenthesised id, and present values show as they are |
| TicketDetailsModal.RequestSection | src/components/TicketDetailsModal.jsx:97-110 | the section appears iff the request list exists and is non-empty; without a manager role no row has a button |
| TicketDetailsModal.ManualAssignExcludesRequests | src/components/TicketDetailsModal.jsx:97-127 | "Assign Manually" and the request section never appear together |
| TicketDetailsModal.InteractionLog | src/components/TicketDetailsModal.jsx:115 | the log shows newest first, one item per stored entry, and nothing for a missing log |
| TicketDetailsModal.InteractionLogKeepsStoredOrder | src/components/TicketDetailsModal.jsx:115 | reading the shown log backwards gives the stored log, so the stored array is not reordered |
| TicketDetailsModal.Render | src/components/TicketDetailsModal.jsx:35-131 | no ticket renders nothing; a ticket renders with `canPay`, the amount, payment status, expertise and assignee items, the manual-assign rule, the request section and the reversed log as defined above |
| PolishedTicketCard.BadgeOf | src/components/PolishedTicketCard.jsx:26-52 | the badge reads "Pending" iff the engineer's assignment is pending, otherwise the status |
| PolishedTicketCard.UnassignedTicketShowsStatus | src/components/PolishedTicketCard.jsx:26-52 | a ticket without an engineer shows its status |
| PolishedTicketCard.StatusColor | src/components/PolishedTicketCard.jsx:31-39 | Open, In Progress and Closed have their own colours; any other status is grey-400 |
| PolishedTicketCard.StatusColorsDistinct | src/components/PolishedTicketCard.jsx:31-35 | the three statuses get three different colours |
| PolishedTicketCard.ChipsOf | src/components/PolishedTicketCard.jsx:64-65 | at most three chips, the first three entries, and an ellipsis iff there are more than three |
| PolishedTicketCard.ChipsHideOnlyWithEllipsis | src/components/PolishedTicketCard.jsx:64-65 | an entry is hidden only when the ellipsis is shown |
| PolishedTicketCard.LastUpdateSource | src/components/PolishedTicketCard.jsx:28-29 | the date comes from the last interaction's timestamp when truthy, else from `createdAt` |
| PolishedTicketCard.StatusMenu | src/components/PolishedTicketCard.jsx:84-86 | three items, one per status, each requesting its own status for this ticket and disabled iff it is the current status |
| PolishedTicketCard.StatusMenuDisablesCurrentOnly | src/components/PolishedTicketCard.jsx:84-86 | at most one item is disabled, and one is iff the current status is one of the three |
| PolishedTicketCard.CardDateIsNewestLogEntry | src/components/PolishedTicketCard.jsx:28 | the card's date comes from the entry the details dialog lists first |
| Login.HandleSubmit | src/Login.jsx:18-47 | `onLogin` is called iff the reply has a truthy token, a user, a truthy role and that role is allowed, and then with token, role and company id; it navigates to `/admin` exactly then; loading ends either way |
| Login.EngineerIsRefused | src/Login.jsx:31-34 | an Engineer, or a user without a role, is refused even with a valid token |
| Login.MissingTokenIsRefused | src/Login.jsx:27-29 | a reply without a token is refused whatever the user |
| Login.AcceptedLoginOpensDashboard | src/Login.jsx:38-39 | an accepted login leads the shell to render the dashboard at `/admin` |
| App.Load | src/App.jsx:9 | the token is read back from storage, and a missing entry reads as `null` |
| App.HandleLogin | src/App.jsx:11-14 | login stores the first argument and makes it the token |
| App.HandleLogout | src/App.jsx:16-19 | logout removes the entry and sets the token to `null` |
| App.SessionStaysSynced | src/App.jsx:9-19 | loading, login and logout keep the token and storage in step, so a reload gives the same token |
| App.RouteOf | src/App.jsx:27-32 | `/login` and `/admin` (with anything below it) are told apart from the catch-all |
| App.Resolve | src/App.jsx:26-33 | `/login` shows the login page iff there is no token; `/admin/*` shows the dashboard iff there is a token; every other case redirects to `/admin` with a token and to `/login` without |
| App.RedirectSettles | src/App.jsx:27-32 | following one redirect always reaches a page |
| App.LogoutGuardsDashboard | src/App.jsx:16-31 | after logout no path shows the dashboard, and after login no path shows the login page |

## Left out

- Socket.IO connections, reconnects and the effects that re-create the socket are not modelled. Events and acknowledgements are inputs to the transitions.
- HTTP calls (`axios`, `fetch`, `apiRequest`) are not modelled. A reply or a failure is an input.
- `localStorage` writes other than the token are left out, and so are toasts, scrolling, animation and theme classes.
- The user-list fetches in the chat components are left out. `LegacyChatWindow.OnContext` only records that an engineer's fetch is issued.
- `FileReader` and the file bytes are not modelled. The data URL of a read and the object URL that `URL.createObjectURL` would return are inputs. An image preview's read completes in its own event (`OnPreviewRead`), which may come after any other event.
- LegacyChatWindow.Send: the file send reads the file before it emits and clears the bar. The model emits and clears in the send step itself, with the read's data URL as an input, so events between the click and the read are not modelled.
- ChatWindow.Send: the file bytes are read after the optimistic append, and the emit waits for that read. The model emits in the send step.
- ChatLayout.SendMessage: for a file, the emit happens only in the reader's `onload`, after the optimistic append. The model emits in the send step. A read that fails or never completes is not modelled: then nothing is emitted, nothing is rolled back, and the optimistic entry stays.
- ChatModel.Optimistic: the entry's timestamp is the clock reading that names the temporary id. The source takes a second reading as an ISO string, and neither the second reading nor its format is modelled.
- Clocks are inputs: the time that makes up a temporary id, message timestamps, and the fifteen-day cutoff of the legacy history request. Date formatting is left out.
- `parseFloat` and `parseInt` are not modelled. An amount is kept as the text typed, and a coordinate is an integer or missing, which keeps the two distinctions the validation makes (empty, and zero or missing). Bulk tickets keep the raw cells for amount and coordinates.
- Spreadsheet cells are modelled as empty, text, integer or boolean. Rich-text, formula, date and fractional cells are left out, and so are ExcelJS parse errors. Rows are given from column 1; the padding slot at index 0 of `row.values` is already dropped, as the source's filter drops it.
- FileDisplay.OnCleanup: React runs an effect's cleanup once, so the model ignores a second cleanup instead of modelling it.
- FileDisplay: a re-run of the effect for new props is modelled as a fresh run, and state left over from an earlier run is not carried across.
- App.RouteOf: matches paths exactly, while React Router matches them case-insensitively and tolerates a trailing slash.
- PolishedTicketCard.StatusColor: treats every string other than the three mapped statuses as unmapped, while `statusColors[ticket.status]` also finds inherited object keys such as `constructor`.
- PolishedTicketCard.LastUpdateSource requires an interaction array, because the source reads `interactions.length` and throws without one.
- The details dialog computes `canPay` but renders no pay button. `TicketDetailsModal.Render` carries the flag without a button, and the Stripe payout is left out.
- The hold-reason and closing-remark sections of the details dialog are left out, since they only show text.
- Presentational components are left out, and so are the payment, address-autocomplete and management pages.

## Findings

| source | as written | input that shows it | evidently intended | confidence | as-written member | corrected member |
|---|---|---|---|---|---|---|
| src/components/chat/ChatWindow.jsx:59-63 | the tempId match is plain `===`, so two `undefined` tempIds match | history `[h]` with `h.tempId` undefined, then an inbound message `m` of the same conversation without tempId: the list becomes `[m]` and `h` is lost | match only a truthy tempId, as the ChatLayout revision does, so `m` is appended | high (not executed) | ChatWindow.UntaggedInboundOverwritesHistory | ChatLayout.UntaggedInboundIsAppended |
| src/components/FileDisplay.jsx:39-56 | the object URL of a body that arrives after the cleanup is kept in `tempURL` but never revoked | a fetch is started, the cleanup runs, then the response arrives ok with a blob URL: that URL is neither stored nor revoked | revoke an object URL created after the component has unmounted | medium (not executed) | FileDisplay.LateBlobIsLeaked | FileDisplay.FixedEffectNeverLeaks |
| src/components/ChatWindow.jsx:133-139 | the image reader's `onloadend` sets the preview whatever happened to the selection during the read | with an earlier image's preview on screen, pick a new image, then press the preview's X (line 270, shown only while a preview is, line 262) or pick a rejected type (lines 127-131) before the read completes: the preview appears with no file selected | set the preview only while the file that was read is still selected | low (not executed) | LegacyChatWindow.StalePreviewOutlivesFile | LegacyChatWindow.PreviewHasFileInvariant |
| src/components/chat/ChatWindow.jsx:131-135 | the image reader's `onloadend` sets the preview whatever happened to the selection during the read | pick an image and send before the read completes (lines 169-172 clear file and preview): the preview comes back with no file selected | set the preview only while the file that was read is still selected | low (not executed) | ChatWindow.SendBeforeReadLeavesStalePreview | ChatWindow.PreviewHasFileInvariant |

=== FILE: app.dfy ===
/** The application shell (src/App.jsx): the token held in state and in
    local storage, the login and logout handlers, and the three routes
    that guard the dashboard behind the token. */
module App {
  import opened Js

  /** The token state next to the `admin-token` entry of local storage. */
  datatype Session = Session(token: Maybe<string>, stored: Option<string>)

  /** On load the token is read back from storage; a missing entry reads
      as `null`. */
  function Load(stored: Option<string>): (s: Session)
    ensures s.stored == stored
    ensures stored.None? <==> s.token == Null
    ensures stored.Some? ==> s.token == Has(stored.value)
  {
    Session(if stored.Some? then Has(stored.value) else Null, stored)
  }

  /** `handleLogin`: only the first argument is used; it is stored and
      becomes the token. */
  function HandleLogin(s: Session, newToken: string): (r: Session)
    ensures r.token == Has(newToken) && r.stored == Some(newToken)
  {
    Session(Has(newToken), Some(newToken))
  }

  /** `handleLogout`: the entry is removed and the token becomes `null`. */
  function HandleLogout(s: Session): (r: Session)
    ensures r.token == Null && r.stored.None?
  {
    Session(Null, None)
  }

  /** State and storage agree: reloading the page yields the same token. */
  predicate Synced(s: Session) {
    Load(s.stored).token == s.token
  }

  /** Loading, logging in and logging out all keep the two in step. */
  lemma SessionStaysSynced(s: Session, stored: Option<string>, newToken: string)
    ensures Synced(Load(stored))
    ensures Synced(HandleLogin(s, newToken))
    ensures Synced(HandleLogout(s))
  {
  }

  /** The route a path falls under: `/login`, `/admin` with anything
      below it, or the catch-all. */
  datatype Route = LoginRoute | AdminRoute | CatchAll

  function RouteOf(path: string): (r: Route)
    ensures r == LoginRoute <==> path == "/login"
    ensures r == AdminRoute <==> path == "/admin" || StartsWith(path, "/admin/")
  {
    if path == "/login" then LoginRoute
    else if path == "/admin" || StartsWith(path, "/admin/") then
      assert path[..6] == "/admin" && "/admin"[1] != "/login"[1];
      AdminRoute
    else CatchAll
  }

  /** What a route renders. */
  datatype Screen = LoginPage | Dashboard(token: string) | Redirect(to: string)

  /** The element rendered for a path under a token. */
  function Resolve(path: string, token: Maybe<string>): (r: Screen)
    ensures r == LoginPage <==> path == "/login" && !Truthy(token)
    ensures r.Dashboard? <==> RouteOf(path) == AdminRoute && Truthy(token)
    ensures r.Dashboard? ==> Has(r.token) == token
    ensures r.Redirect? ==> r.to == (if Truthy(token) then "/admin" else "/login")
  {
    match RouteOf(path)
    case LoginRoute => if !Truthy(token) then LoginPage else Redirect("/admin")
    case AdminRoute => if Truthy(token) then Dashboard(token.value) else Redirect("/login")
    case CatchAll => Redirect(if Truthy(token) then "/admin" else "/login")
  }

  /** Following a redirect once reaches a page: no route redirects twice
      under the same token. */
  lemma RedirectSettles(path: string, token: Maybe<string>)
    requires Resolve(path, token).Redirect?
    ensures !Resolve(Resolve(path, token).to, token).Redirect?
  {
    assert !StartsWith("/login", "/admin/");
  }

  /** A logged-out session can reach only the login page, and a logged-in
      one never sees it. */
  lemma LogoutGuardsDashboard(s: Session, path: string, newToken: string)
    requires newToken != ""
    ensures !Resolve(path, HandleLogout(s).token).Dashboard?
    ensures Resolve(path, HandleLogin(s, newToken).token) != LoginPage
  {
  }
}

=== FILE: bulk_ticket_upload.dfy ===
/** The spreadsheet import (src/components/BulkTicketUploadModal.jsx): the
    file-type gate, the header row, the mapping of each data row onto the
    headers, the skipping of empty rows and the ticket built from a row.
    The workbook itself is an input: the first worksheet as a header row
    and the data rows after it, each a sequence of cell values from
    column 1. */
module BulkTicketUpload {
  import opened Js

  /** A cell value: empty (`null`), text, a number (integers only here) or
      a boolean. */
  datatype Cell = EmptyCell | Text(text: string) | Number(n: int) | Boolean(b: bool)

  /** JavaScript truthiness of a cell value. */
  predicate CellTruthy(c: Cell) {
    match c
    case EmptyCell => false
    case Text(s) => s != ""
    case Number(n) => n != 0
    case Boolean(b) => b
  }

  /** `String(value)`. */
  function CellString(c: Cell): (r: string)
    ensures c.Text? ==> r == c.text
    ensures c.Boolean? ==> r == (if c.b then "true" else "false")
    ensures c.EmptyCell? ==> r == "null"
  {
    match c
    case EmptyCell => "null"
    case Text(s) => s
    case Number(n) => IntToString(n)
    case Boolean(b) => if b then "true" else "false"
  }

  /** The values the empty-row test treats as nothing: `null` and `''`
      (`undefined` never occurs as a cell value). */
  predicate CellBlank(c: Cell) {
    c == EmptyCell || c == Text("")
  }

  /** The name a header cell gives its column: the cell stringified and
      trimmed when truthy, "" (no name) otherwise. */
  function HeaderName(c: Cell): string {
    if CellTruthy(c) then Trim(CellString(c)) else ""
  }

  /** A header cell that names a column: truthy, and not only white space. */
  predicate NamesColumn(c: Cell) {
    CellTruthy(c) && !Blank(CellString(c))
  }

  /** The header names: each truthy header cell stringified and trimmed,
      blanks (and falsy cells such as 0) dropped. Every cell that names a
      column contributes its name. */
  function HeaderNames(cells: seq<Cell>): (r: seq<string>)
    ensures |r| <= |cells|
    ensures forall i :: 0 <= i < |r| ==> r[i] != "" && Trim(r[i]) == r[i]
    ensures forall j :: 0 <= j < |cells| && NamesColumn(cells[j]) ==> HeaderName(cells[j]) in r
  {
    if cells == [] then []
    else
      var rest := HeaderNames(cells[1..]);
      var h := HeaderName(cells[0]);
      TrimIdempotent(CellString(cells[0]));
      assert forall j :: 1 <= j < |cells| ==> cells[j] == cells[1..][j - 1];
      if h == "" then rest else [h] + rest
  }

  /** The header list follows the header row: a longer row's names are the
      names of its two parts, in order. */
  lemma {:induction false} HeaderNamesAppend(a: seq<Cell>, b: seq<Cell>)
    ensures HeaderNames(a + b) == HeaderNames(a) + HeaderNames(b)
  {
    if a == [] {
      assert a + b == b;
    } else {
      assert (a + b)[0] == a[0];
      assert (a + b)[1..] == a[1..] + b;
      HeaderNamesAppend(a[1..], b);
    }
  }

  /** One cell contributes its name exactly when it names a column. */
  lemma HeaderNamesOfOneCell(c: Cell)
    ensures HeaderNames([c]) == if NamesColumn(c) then [HeaderName(c)] else []
  {
    assert [c][1..] == [];
  }

  /** Every header name comes from a cell that names a column. */
  lemma {:induction false} HeaderNamesFromCells(cells: seq<Cell>, x: string)
    requires x in HeaderNames(cells)
    ensures exists j :: 0 <= j < |cells| && NamesColumn(cells[j]) && x == HeaderName(cells[j])
  {
    if NamesColumn(cells[0]) && x == HeaderName(cells[0]) {
    } else {
      HeaderNamesFromCells(cells[1..], x);
      var j :| 0 <= j < |cells[1..]| && NamesColumn(cells[1..][j]) && x == HeaderName(cells[1..][j]);
      assert cells[1..][j] == cells[j + 1];
    }
  }

  /** When every header cell names a column, no column is dropped and the
      names line up with the columns. */
  lemma {:induction false} HeadersAlignWithoutBlanks(cells: seq<Cell>)
    requires forall i :: 0 <= i < |cells| ==> NamesColumn(cells[i])
    ensures |HeaderNames(cells)| == |cells|
    ensures forall i :: 0 <= i < |cells| ==> HeaderNames(cells)[i] == HeaderName(cells[i])
  {
    if cells != [] {
      var rest := cells[1..];
      HeadersAlignWithoutBlanks(rest);
      var h := HeaderName(cells[0]);
      assert h != "";
      assert HeaderNames(cells) == [h] + HeaderNames(rest);
    }
  }

  /** The columns that reach the map: those with a header. */
  function Width(headers: seq<string>, row: seq<Cell>): (n: nat)
    ensures n <= |headers| && n <= |row|
    ensures n == |headers| || n == |row|
  {
    if |row| < |headers| then |row| else |headers|
  }

  /** The position of the last occurrence of `k` in `names`. */
  function LastIndex(names: seq<string>, k: string): (i: nat)
    requires k in names
    ensures i < |names| && names[i] == k
    ensures forall j :: i < j < |names| ==> names[j] != k
  {
    var n := |names| - 1;
    if names[n] == k then n
    else
      assert names == names[..n] + [names[n]];
      LastIndex(names[..n], k)
  }

  /** Names paired with values, stored left to right: every name is a
      key, and the value under a name is the one paired with its last
      occurrence. */
  function StoreAll(names: seq<string>, values: seq<Cell>): (m: map<string, Cell>)
    requires |names| == |values|
    ensures forall k :: k in m <==> k in names
    ensures forall k :: k in m ==> m[k] == values[LastIndex(names, k)]
  {
    if names == [] then map[]
    else
      var n := |names| - 1;
      assert names == names[..n] + [names[n]];
      StoreAll(names[..n], values[..n])[names[n] := values[n]]
  }

  /** `rowData`: each cell of the row stored under the header with the
      same position in the header list, left to right, so a repeated name
      keeps the rightmost value; cells past the header list are ignored. */
  function MapRow(headers: seq<string>, row: seq<Cell>): (m: map<string, Cell>)
    ensures forall k :: k in m <==> k in headers[..Width(headers, row)]
    ensures forall k :: k in m ==> m[k] == row[LastIndex(headers[..Width(headers, row)], k)]
  {
    var w := Width(headers, row);
    StoreAll(headers[..w], row[..w])
  }

  /** With distinct headers, column `c` is stored under its own header. */
  lemma DistinctHeadersKeepColumns(headers: seq<string>, row: seq<Cell>, c: nat)
    requires forall i, j :: 0 <= i < j < |headers| ==> headers[i] != headers[j]
    requires c < |headers| && c < |row|
    ensures headers[c] in MapRow(headers, row) && MapRow(headers, row)[headers[c]] == row[c]
  {
    var w := Width(headers, row);
    assert headers[..w][c] == headers[c];
  }

  /** A header cell that names no column is dropped from the header list,
      wherever it stands. */
  lemma InteriorBlankHeaderDropped(a: seq<Cell>, blank: Cell, b: seq<Cell>)
    requires !NamesColumn(blank)
    ensures HeaderNames(a + [blank] + b) == HeaderNames(a) + HeaderNames(b)
  {
    HeaderNamesAppend(a + [blank], b);
    HeaderNamesAppend(a, [blank]);
    HeaderNamesOfOneCell(blank);
  }

  /** In a distinct header list made of two parts, the second part's
      entry `j` names the column just after the first part's columns. */
  lemma SecondPartColumn(ha: seq<string>, hb: seq<string>, row: seq<Cell>, j: nat)
    requires forall i, k :: 0 <= i < k < |ha + hb| ==> (ha + hb)[i] != (ha + hb)[k]
    requires j < |hb| && |ha| + j < |row|
    ensures hb[j] in MapRow(ha + hb, row) && MapRow(ha + hb, row)[hb[j]] == row[|ha| + j]
  {
    assert (ha + hb)[|ha| + j] == hb[j];
    DistinctHeadersKeepColumns(ha + hb, row, |ha| + j);
  }

  /** With a blank header dropped, every later column shifts one header to
      the left: the header written above column |a| + 1 + j names the
      value of column |a| + j. */
  lemma InteriorBlankHeaderShifts(a: seq<Cell>, blank: Cell, b: seq<Cell>, row: seq<Cell>, j: nat)
    requires forall i :: 0 <= i < |a| ==> NamesColumn(a[i])
    requires forall i :: 0 <= i < |b| ==> NamesColumn(b[i])
    requires !NamesColumn(blank)
    requires var hs := HeaderNames(a + [blank] + b);
             forall i, k :: 0 <= i < k < |hs| ==> hs[i] != hs[k]
    requires j < |b| && |a| + j < |row|
    ensures var m := MapRow(HeaderNames(a + [blank] + b), row);
            HeaderName(b[j]) in m && m[HeaderName(b[j])] == row[|a| + j]
  {
    InteriorBlankHeaderDropped(a, blank, b);
    HeadersAlignWithoutBlanks(a);
    HeadersAlignWithoutBlanks(b);
    SecondPartColumn(HeaderNames(a), HeaderNames(b), row, j);
  }

  /** `Object.values(rowData).some(v => v !== null && v !== undefined && v !== '')`. */
  predicate RowKept(m: map<string, Cell>) {
    exists k :: k in m && !CellBlank(m[k])
  }

  /** A zero or `false` keeps a row; only `null` and `''` count as empty. */
  lemma ZeroKeepsRow(headers: seq<string>)
    requires |headers| >= 1
    ensures RowKept(MapRow(headers, [Number(0)]))
    ensures RowKept(MapRow(headers, [Boolean(false)]))
    ensures !RowKept(MapRow(headers, [Text("")]))
  {
    assert [Number(0)][..0] == [];
    assert [Boolean(false)][..0] == [];
    assert [Text("")][..0] == [];
    assert MapRow(headers, [Number(0)])[headers[0]] == Number(0);
    assert MapRow(headers, [Boolean(false)])[headers[0]] == Boolean(false);
  }

  /** The mapped rows that survive the empty-row test, in sheet order. */
  function KeptRows(headers: seq<string>, rows: seq<seq<Cell>>): (r: seq<map<string, Cell>>)
    ensures |r| <= |rows|
    ensures forall i :: 0 <= i < |r| ==> RowKept(r[i])
    ensures forall i :: 0 <= i < |rows| && RowKept(MapRow(headers, rows[i])) ==> MapRow(headers, rows[i]) in r
  {
    if rows == [] then []
    else
      var m := MapRow(headers, rows[0]);
      var rest := KeptRows(headers, rows[1..]);
      assert forall i :: 1 <= i < |rows| ==> rows[i] == rows[1..][i - 1];
      if RowKept(m) then [m] + rest else rest
  }

  /** Every kept entry is the mapping of some data row. */
  lemma {:induction false} KeptRowsFromSheet(headers: seq<string>, rows: seq<seq<Cell>>, m: map<string, Cell>)
    requires m in KeptRows(headers, rows)
    ensures exists j :: 0 <= j < |rows| && m == MapRow(headers, rows[j]) && RowKept(m)
  {
    if !(RowKept(MapRow(headers, rows[0])) && m == MapRow(headers, rows[0])) {
      KeptRowsFromSheet(headers, rows[1..], m);
      var j :| 0 <= j < |rows[1..]| && m == MapRow(headers, rows[1..][j]) && RowKept(m);
      assert rows[1..][j] == rows[j + 1];
    }
  }

  /** Keeping rows distributes over sheet order: the rows of a longer sheet
      keep the earlier rows' results first. */
  lemma {:induction false} KeptRowsAppend(headers: seq<string>, a: seq<seq<Cell>>, b: seq<seq<Cell>>)
    ensures KeptRows(headers, a + b) == KeptRows(headers, a) + KeptRows(headers, b)
  {
    if a == [] {
      assert a + b == b;
    } else {
      assert (a + b)[0] == a[0];
      assert (a + b)[1..] == a[1..] + b;
      KeptRowsAppend(headers, a[1..], b);
    }
  }

  /** A cell looked up by header name; `None` is `undefined`. */
  function Lookup(m: map<string, Cell>, key: string): (r: Option<Cell>)
    ensures r.Some? <==> key in m
    ensures r.Some? ==> r.value == m[key]
  {
    if key in m then Some(m[key]) else None
  }

  /** A ticket of the bulk request. Amounts and coordinates keep the raw
      cell, since `parseFloat` is outside the model. */
  datatype BulkTicket = BulkTicket(
    companyName: Option<Cell>,
    siteAddress: Option<Cell>,
    workDescription: Option<Cell>,
    amount: Option<Cell>,
    expertise: seq<string>,
    latitude: Option<Cell>,
    longitude: Option<Cell>,
    companyId: Maybe<string>)

  /** The expertise list of a row: its cell split on commas, trimmed and
      without blanks; nothing for a missing or falsy cell. */
  function ExpertiseOf(m: map<string, Cell>): (r: seq<string>)
    ensures forall i :: 0 <= i < |r| ==> r[i] != "" && ',' !in r[i] && Trim(r[i]) == r[i]
    ensures !("Expertise Required" in m && CellTruthy(m["Expertise Required"])) ==> r == []
    ensures "Expertise Required" in m && CellTruthy(m["Expertise Required"]) ==>
              var pieces := Split(CellString(m["Expertise Required"]), ',');
              forall p :: p in pieces && !Blank(p) ==> Trim(p) in r
  {
    var v := Lookup(m, "Expertise Required");
    if v.Some? && CellTruthy(v.value) then CommaList(CellString(v.value)) else []
  }

  /** Every expertise entry is a non-blank piece of the cell between
      commas, trimmed. */
  lemma ExpertiseFromCell(m: map<string, Cell>, x: string)
    requires x in ExpertiseOf(m)
    ensures "Expertise Required" in m && CellTruthy(m["Expertise Required"])
    ensures exists p :: p in Split(CellString(m["Expertise Required"]), ',') && !Blank(p) && x == Trim(p)
  {
    CommaListFromPieces(CellString(m["Expertise Required"]), x);
  }

  /** The entries keep the order of the cell's text: the first piece's
      entry, if it is not blank, comes before those of the rest. */
  lemma ExpertiseKeepsPieceOrder(m: map<string, Cell>, x: string, t: string)
    requires ',' !in x
    ensures var m' := m["Expertise Required" := Text(x + "," + t)];
            ExpertiseOf(m') == (if Blank(x) then [] else [Trim(x)]) + CommaList(t)
  {
    var cell := x + "," + t;
    var m' := m["Expertise Required" := Text(cell)];
    assert cell[|x|] == ',';
    assert Lookup(m', "Expertise Required") == Some(Text(cell));
    assert CellTruthy(Text(cell)) && CellString(Text(cell)) == cell;
    CommaListAfterHead(x, t);
  }

  /** A cell holding clean expertise names written out with commas gives
      those names back, in order. */
  lemma ExpertiseRoundTrip(m: map<string, Cell>, names: seq<string>)
    requires forall i :: 0 <= i < |names| ==> names[i] != "" && ',' !in names[i] && Trim(names[i]) == names[i]
    requires names != []
    ensures ExpertiseOf(m["Expertise Required" := Text(Join(names, ","))]) == names
  {
    var cell := Join(names, ",");
    CommaListRoundTrip(names);
    assert cell != "" by {
      if |names| > 1 {
        assert cell == names[0] + "," + Join(names[1..], ",");
      }
    }
    var m' := m["Expertise Required" := Text(cell)];
    assert Lookup(m', "Expertise Required") == Some(Text(cell));
    assert CellTruthy(Text(cell)) && CellString(Text(cell)) == cell;
    assert ExpertiseOf(m') == CommaList(cell);
  }

  /** The ticket for one kept row. */
  function ToTicket(m: map<string, Cell>, role: string, companyId: Maybe<string>): (t: BulkTicket)
    ensures t.companyName == Lookup(m, "Company Name")
    ensures t.siteAddress == Lookup(m, "Site Address")
    ensures t.workDescription == Lookup(m, "Work Description")
    ensures t.amount == Lookup(m, "Amount")
    ensures t.latitude == Lookup(m, "Latitude") && t.longitude == Lookup(m, "Longitude")
    ensures t.expertise == ExpertiseOf(m)
    ensures t.companyId.Has? <==> role == "Company Admin" && Truthy(companyId)
    ensures t.companyId.Has? ==> t.companyId == companyId
  {
    BulkTicket(Lookup(m, "Company Name"), Lookup(m, "Site Address"), Lookup(m, "Work Description"),
               Lookup(m, "Amount"), ExpertiseOf(m), Lookup(m, "Latitude"), Lookup(m, "Longitude"),
               if role == "Company Admin" && Truthy(companyId) then companyId else Undefined)
  }

  /** With distinct headers, a column's cell reaches the ticket field its
      header names, and a field whose header is missing stays `undefined`. */
  lemma ColumnReachesTicket(headers: seq<string>, row: seq<Cell>, c: nat, role: string,
                            companyId: Maybe<string>)
    requires forall i, j :: 0 <= i < j < |headers| ==> headers[i] != headers[j]
    requires c < |headers| && c < |row|
    ensures var t := ToTicket(MapRow(headers, row), role, companyId);
            && (headers[c] == "Company Name" ==> t.companyName == Some(row[c]))
            && (headers[c] == "Site Address" ==> t.siteAddress == Some(row[c]))
            && (headers[c] == "Work Description" ==> t.workDescription == Some(row[c]))
            && (headers[c] == "Amount" ==> t.amount == Some(row[c]))
            && (headers[c] == "Latitude" ==> t.latitude == Some(row[c]))
            && (headers[c] == "Longitude" ==> t.longitude == Some(row[c]))
    ensures "Amount" !in headers ==> ToTicket(MapRow(headers, row), role, companyId).amount == None
  {
    DistinctHeadersKeepColumns(headers, row, c);
    var w := Width(headers, row);
    assert "Amount" !in headers ==> "Amount" !in headers[..w];
  }

  /** The MIME type of an .xlsx workbook, the only type the picker keeps. */
  const XlsxType: string := "application/vnd.openxmlformats-officedocument.spreadsheetml.sheet"

  /** `handleFileChange`: an .xlsx file replaces the selection; anything
      else, or no file, keeps the previous one. */
  function FileChange<F>(current: Option<F>, picked: Option<F>, pickedType: string): (r: Option<F>)
    ensures picked.Some? && pickedType == XlsxType ==> r == picked
    ensures !(picked.Some? && pickedType == XlsxType) ==> r == current
  {
    if picked.Some? && pickedType == XlsxType then picked else current
  }

  /** The first worksheet as the model sees it. */
  datatype Worksheet = Worksheet(headerRow: seq<Cell>, dataRows: seq<seq<Cell>>)

  /** The outcome of `handleUpload`. */
  datatype Upload =
    | NoFileSelected
    | NoWorksheet
    | EmptySheet
    | Post(tickets: seq<BulkTicket>)

  /** `handleUpload` for the selected file and its parsed first worksheet. */
  function HandleUpload<F>(file: Option<F>, sheet: Option<Worksheet>, role: string,
                           companyId: Maybe<string>): (u: Upload)
    ensures file.None? <==> u == NoFileSelected
    ensures file.Some? && sheet.None? <==> u == NoWorksheet
    ensures u.Post? ==>
              var rows := KeptRows(HeaderNames(sheet.value.headerRow), sheet.value.dataRows);
              && rows != []
              && |u.tickets| == |rows|
              && forall i :: 0 <= i < |rows| ==> u.tickets[i] == ToTicket(rows[i], role, companyId)
    ensures u == EmptySheet <==>
              file.Some? && sheet.Some? && KeptRows(HeaderNames(sheet.value.headerRow), sheet.value.dataRows) == []
  {
    if file.None? then NoFileSelected
    else if sheet.None? then NoWorksheet
    else
      var rows := KeptRows(HeaderNames(sheet.value.headerRow), sheet.value.dataRows);
      if rows == [] then EmptySheet
      else Post(seq(|rows|, i requires 0 <= i < |rows| => ToTicket(rows[i], role, companyId)))
  }

  /** A sheet whose data rows are all empty is refused, whatever its
      header. */
  lemma BlankRowsAreRefused<F>(file: F, header: seq<Cell>, rows: seq<seq<Cell>>, role: string,
                               companyId: Maybe<string>)
    requires forall i, j :: 0 <= i < |rows| && 0 <= j < |rows[i]| ==> CellBlank(rows[i][j])
    ensures HandleUpload(Some(file), Some(Worksheet(header, rows)), role, companyId) == EmptySheet
  {
    var hs := HeaderNames(header);
    forall i | 0 <= i < |rows|
      ensures !RowKept(MapRow(hs, rows[i]))
    {
      var m := MapRow(hs, rows[i]);
      forall k | k in m
        ensures CellBlank(m[k])
      {
        BlankRowMapsBlank(hs, rows[i], k);
      }
    }
    KeptRowsNone(hs, rows);
  }

  /** Every value in the map of a row comes from one of its cells, so a
      row of blank cells maps to blanks only. */
  lemma BlankRowMapsBlank(headers: seq<string>, row: seq<Cell>, k: string)
    requires forall j :: 0 <= j < |row| ==> CellBlank(row[j])
    requires k in MapRow(headers, row)
    ensures CellBlank(MapRow(headers, row)[k])
  {
    var i := LastIndex(headers[..Width(headers, row)], k);
    assert MapRow(headers, row)[k] == row[i];
  }

  lemma {:induction false} KeptRowsNone(headers: seq<string>, rows: seq<seq<Cell>>)
    requires forall i :: 0 <= i < |rows| ==> !RowKept(MapRow(headers, rows[i]))
    ensures KeptRows(headers, rows) == []
  {
    if rows != [] {
      KeptRowsNone(headers, rows[1..]);
    }
  }
}

=== FILE: chat_header.dfy ===
/** The chat title (src/components/chat/ChatHeader.jsx, repeated in
    src/components/chat/ChatWindow.jsx): a prompt, a person with a presence
    dot, or a ticket number. */
module ChatHeader {
  import opened Js
  import opened ChatModel
  import ChatLayout

  datatype Title =
    | Prompt(text: string)
    | Person(name: string, online: bool)
    | TicketTitle(text: string)

  /** `onlineUsers[id]` is truthy: the key is the id as a property name and
      its entry is `true`; a user without an entry counts as offline. */
  predicate IsOnline(online: map<string, bool>, id: Maybe<string>) {
    Str(id) in online && online[Str(id)]
  }

  /** `getChatTitle()`. */
  function TitleOf(active: Option<Chat>, online: map<string, bool>): (t: Title)
    ensures active.None? <==> t == Prompt("Select a chat")
    ensures t.Person? <==> active.Some? && Truthy(active.value.fullName)
    ensures t.Person? ==> t.name == active.value.fullName.value && (t.online <==> IsOnline(online, active.value.id))
    ensures t.TicketTitle? ==> t.text == "Ticket #" + Str(active.value.ticketId)
  {
    match active
    case None => Prompt("Select a chat")
    case Some(c) =>
      if Truthy(c.fullName) then Person(c.fullName.value, IsOnline(online, c.id))
      else TicketTitle("Ticket #" + Str(c.ticketId))
  }

  /** The title of a person shows the same kind of chat the room join
      targets: a person exactly for a direct chat. */
  lemma TitleMatchesTarget(c: Chat, online: map<string, bool>)
    ensures TitleOf(Some(c), online).Person? <==> TargetOf(c).Direct?
  {
  }

  /** A user nobody has reported on is shown offline. */
  lemma UnknownUserIsOffline(c: Chat, online: map<string, bool>)
    requires Truthy(c.fullName) && Str(c.id) !in online
    ensures TitleOf(Some(c), online) == Person(c.fullName.value, false)
  {
  }

  /** The dot follows the container's presence events for the chat's user
      and ignores those for anyone else. */
  lemma PresenceEventsDriveTheDot(st: ChatLayout.State, c: Chat, other: string)
    requires Truthy(c.fullName) && other != Str(c.id)
    ensures TitleOf(Some(c), ChatLayout.UserOnline(st, Str(c.id)).online).online
    ensures !TitleOf(Some(c), ChatLayout.UserOffline(st, Str(c.id)).online).online
    ensures TitleOf(Some(c), ChatLayout.UserOnline(st, other).online) == TitleOf(Some(c), st.online)
    ensures TitleOf(Some(c), ChatLayout.UserOffline(st, other).online) == TitleOf(Some(c), st.online)
  {
  }

  /** The status reply for the chat's own id decides the dot. */
  lemma StatusReplyDrivesTheDot(st: ChatLayout.State, c: Chat, isOnline: bool)
    requires Truthy(c.fullName)
    ensures TitleOf(Some(c), ChatLayout.OnUserStatus(st, c.id, isOnline).online).online == isOnline
  {
  }
}

=== FILE: chat_input.dfy ===
/** The compose bar of the optimistic chat (src/components/chat/ChatInput.jsx):
    text, an attached file with its preview, and the send trigger. */
module ChatInput {
  import opened Js
  import opened ChatModel

  /** The 5 MB attachment limit. */
  const MaxFileSize: nat := 5 * 1024 * 1024

  /** `newMessage`, `selectedFile` and `filePreview`. */
  datatype State = State(text: string, file: Option<File>, preview: Option<string>)

  function Init(): (st: State)
    ensures st.text == [] && st.file.None? && st.preview.None?
  {
    State([], None, None)
  }

  /** `handleFileSelect`: a missing or oversized file changes nothing; any
      other file is taken whatever its type, previewed through the object
      URL created for it when it is an image and by its name otherwise. */
  function SelectFile(st: State, picked: Option<File>, objectUrl: string): (r: State)
    ensures picked.None? ==> r == st
    ensures picked.Some? && picked.value.size > MaxFileSize ==> r == st
    ensures picked.Some? && picked.value.size <= MaxFileSize ==>
              && r.text == st.text
              && r.file == picked
              && (StartsWith(picked.value.mimeType, "image/") ==> r.preview == Some(objectUrl))
              && (!StartsWith(picked.value.mimeType, "image/") ==> r.preview == Some(picked.value.name))
  {
    match picked
    case None => st
    case Some(f) =>
      if f.size > MaxFileSize then st
      else st.(file := picked,
               preview := Some(if StartsWith(f.mimeType, "image/") then objectUrl else f.name))
  }

  /** The limit is inclusive: exactly 5 MiB is accepted, one byte more is not. */
  lemma SizeLimitIsInclusive(st: State, name: string, mimeType: string, objectUrl: string)
    ensures MaxFileSize == 5242880
    ensures SelectFile(st, Some(File(name, mimeType, 5242880)), objectUrl).file
            == Some(File(name, mimeType, 5242880))
    ensures SelectFile(st, Some(File(name, mimeType, 5242881)), objectUrl) == st
  {
  }

  /** `clearFile`: drops the attachment and its preview, keeps the text. */
  function ClearFile(st: State): (r: State)
    ensures r.text == st.text && r.file.None? && r.preview.None?
  {
    st.(file := None, preview := None)
  }

  /** What `handleSend` hands to `onSendMessage`, and the state after. */
  datatype Send = Send(state: State, text: string, file: Option<File>)

  /** `handleSend`: forwards the text as typed (untrimmed) and the file, then
      resets the whole compose bar. */
  function HandleSend(st: State): (r: Send)
    ensures r.text == st.text && r.file == st.file
    ensures r.state == Init()
  {
    Send(ClearFile(st.(text := [])), st.text, st.file)
  }

  /** A preview is shown only while a file is attached. */
  predicate PreviewHasFile(st: State) {
    st.preview.Some? ==> st.file.Some?
  }

  /** The object URL is created in the same step as the selection, so
      every handler keeps the preview tied to an attached file, from the
      initial state on. */
  lemma PreviewHasFileInvariant(st: State, picked: Option<File>, objectUrl: string)
    requires PreviewHasFile(st)
    ensures PreviewHasFile(Init())
    ensures PreviewHasFile(SelectFile(st, picked, objectUrl))
    ensures PreviewHasFile(ClearFile(st))
    ensures PreviewHasFile(HandleSend(st).state)
  {
  }

  /** The send button's `disabled`: blank text and no file. */
  predicate SendDisabled(st: State) {
    Blank(st.text) && st.file.None?
  }

  /** `onKeyPress`: Enter sends with no emptiness check of its own; other
      keys do nothing. */
  function KeyPress(st: State, key: string): (r: Option<Send>)
    ensures r.Some? <==> key == "Enter"
    ensures r.Some? ==> r.value.text == st.text && r.value.file == st.file
  {
    if key == "Enter" then Some(HandleSend(st)) else None
  }
}

=== FILE: chat_layout.dfy ===
/** The optimistic chat container (src/components/chat/ChatLayout.jsx): the
    message list of the active conversation, presence, room joining and the
    optimistic send with rollback. Socket events and acknowledgements are
    explicit inputs to pure transitions. */
module ChatLayout {
  import opened Js
  import opened ChatModel
  import ChatInput

  /** The component state: whether a socket exists, `activeChat`, `messages`,
      `onlineUsers` and `currentConversationId`. */
  datatype State = State(
    hasSocket: bool,
    activeChat: Option<Chat>,
    messages: seq<Message>,
    online: map<string, bool>,
    conversationId: Maybe<string>)

  function Init(hasSocket: bool): (st: State)
    ensures st.messages == [] && st.online == map[] && st.conversationId == Null
    ensures st.activeChat.None?
  {
    State(hasSocket, None, [], map[], Null)
  }

  /** A transition's new state and the socket requests it emits. */
  datatype Effect = Effect(state: State, requests: seq<Request>)

  /** The `receiveMessage` handler. A message of another conversation is
      dropped. Otherwise the first entry whose truthy tempId equals the
      inbound tempId is replaced in place, or the message is appended. */
  function Receive(st: State, inbound: Message): (r: State)
    ensures r == st.(messages := r.messages)
    ensures inbound.conversationId != st.conversationId ==> r == st
    ensures inbound.conversationId == st.conversationId && Claimed(st.messages, inbound, Guarded) ==>
              exists k :: FirstClaim(st.messages, inbound, Guarded, k)
                          && r.messages == st.messages[k := inbound]
    ensures inbound.conversationId == st.conversationId && !Claimed(st.messages, inbound, Guarded) ==>
              r.messages == st.messages + [inbound]
  {
    if inbound.conversationId == st.conversationId then
      st.(messages := Reconcile(st.messages, inbound, Guarded))
    else st
  }

  /** An inbound message without a truthy tempId can never replace an
      existing entry: it is appended after the unchanged list. */
  lemma UntaggedInboundIsAppended(st: State, inbound: Message)
    requires inbound.conversationId == st.conversationId
    requires !Truthy(inbound.tempId)
    ensures Receive(st, inbound).messages == st.messages + [inbound]
  {
  }

  /** `userOnline`: marks one user online. */
  function UserOnline(st: State, userId: string): (r: State)
    ensures r == st.(online := r.online)
    ensures r.online.Keys == st.online.Keys + {userId} && r.online[userId]
    ensures forall u :: u in st.online && u != userId ==> r.online[u] == st.online[u]
  {
    st.(online := SetPresence(st.online, userId, true))
  }

  /** `userOffline`: marks one user offline. */
  function UserOffline(st: State, userId: string): (r: State)
    ensures r == st.(online := r.online)
    ensures r.online.Keys == st.online.Keys + {userId} && !r.online[userId]
    ensures forall u :: u in st.online && u != userId ==> r.online[u] == st.online[u]
  {
    st.(online := SetPresence(st.online, userId, false))
  }

  /** The last presence event for a user decides, whatever came before. */
  lemma LastPresenceEventWins(st: State, userId: string)
    ensures !UserOffline(UserOnline(st, userId), userId).online[userId]
    ensures UserOnline(UserOffline(st, userId), userId).online[userId]
  {
  }

  /** The room-joining effect, run when the socket or the active chat
      changes. Without a socket or a chat the list is emptied and the
      conversation id cleared; otherwise the room of the chat's target is
      joined and nothing else changes yet. */
  function OnSelection(st: State): (e: Effect)
    ensures !st.hasSocket || st.activeChat.None? ==>
              e.state == st.(messages := [], conversationId := Null) && e.requests == []
    ensures st.hasSocket && st.activeChat.Some? ==>
              && e.state == st
              && |e.requests| == 1
              && e.requests[0].JoinRoom?
              && e.requests[0].roomId == st.activeChat.value.id
              && (e.requests[0].event == "joinDirectChatRoom" <==> Truthy(st.activeChat.value.fullName))
  {
    if !st.hasSocket || st.activeChat.None? then
      Effect(st.(messages := [], conversationId := Null), [])
    else
      var t := TargetOf(st.activeChat.value);
      Effect(st, [JoinRoom(JoinEvent(t), RoomId(t))])
  }

  /** The join acknowledgement for target `t`: on success the history is
      fetched with `receiverId` or `ticketId`, and a direct chat also asks
      for the counterpart's status; a refusal only shows an error. */
  function OnJoinAck(st: State, t: Target, success: bool): (e: Effect)
    ensures e.state == st
    ensures !success ==> e.requests == []
    ensures success ==> |e.requests| >= 1 && e.requests[0] == FetchMessages(t)
    ensures success ==> (|e.requests| == 2 <==> t.Direct?)
    ensures success && t.Direct? ==> e.requests[1] == CheckUserStatus(t.userId)
  {
    Effect(st, JoinFollowUps(t, success))
  }

  /** The `fetchMessages` reply replaces the list and sets the id. */
  function OnHistory(st: State, history: seq<Message>, conversationId: Maybe<string>): (r: State)
    ensures r.messages == history && r.conversationId == conversationId
    ensures r.online == st.online && r.activeChat == st.activeChat && r.hasSocket == st.hasSocket
  {
    st.(messages := history, conversationId := conversationId)
  }

  /** Selecting a chat, an accepted join and the history reply, in that
      order: the join names the chat's room, the accepted join asks for the
      chat's history, and the reply leaves that history on screen under its
      conversation id with the same chat still selected. */
  lemma JoinedChatShowsItsHistory(st: State, history: seq<Message>, conversationId: Maybe<string>)
    requires st.hasSocket && st.activeChat.Some?
    ensures var t := TargetOf(st.activeChat.value);
            var joined := OnSelection(st);
            var acked := OnJoinAck(joined.state, t, true);
            var after := OnHistory(acked.state, history, conversationId);
            && joined.requests == [JoinRoom(JoinEvent(t), st.activeChat.value.id)]
            && acked.requests[0] == FetchMessages(t)
            && after == st.(messages := history, conversationId := conversationId)
  {
  }

  /** The `checkUserStatus` reply stores the status under the chat's `_id`
      (rendered as an object key). */
  function OnUserStatus(st: State, id: Maybe<string>, isOnline: bool): (r: State)
    ensures r == st.(online := r.online)
    ensures Str(id) in r.online && r.online[Str(id)] == isOnline
  {
    st.(online := SetPresence(st.online, Str(id), isOnline))
  }

  /** `sendMessage(messageText, file)`. Without a socket, without an active
      chat, or with blank text and no file nothing happens. Otherwise one
      optimistic entry is appended after the unchanged list and one
      `sendMessage` request is emitted carrying the trimmed text and the
      temporary id. */
  function SendMessage(st: State, text: string, file: Option<File>, userId: string,
                       userRole: Maybe<string>, now: string, blobUrl: string): (e: Effect)
    ensures !st.hasSocket || st.activeChat.None? || (Blank(text) && file.None?) ==>
              e == Effect(st, [])
    ensures st.hasSocket && st.activeChat.Some? && !(Blank(text) && file.None?) ==>
              var t := TempId(userId, now);
              && e.state == st.(messages := e.state.messages)
              && |e.state.messages| == |st.messages| + 1
              && e.state.messages[..|st.messages|] == st.messages
              && var m := e.state.messages[|st.messages|];
              && m.id == Has(t) && m.tempId == Has(t) && m.isOptimistic
              && m.text == Has(Trim(text)) && m.conversationId == st.conversationId
              && |e.requests| == 1 && e.requests[0].PostMessage?
              && var o := e.requests[0].data;
              && o.tempId == t && o.text == Trim(text) && o.conversationId == st.conversationId
              && (TargetOf(st.activeChat.value).Direct? ==>
                    o.receiverId == st.activeChat.value.id && o.ticketId == Null)
              && (TargetOf(st.activeChat.value).TicketRoom? ==>
                    o.ticketId == st.activeChat.value.id && o.receiverId == Null)
  {
    if !st.hasSocket || st.activeChat.None? || (Blank(text) && file.None?) then Effect(st, [])
    else
      var t := TempId(userId, now);
      var trimmed := Trim(text);
      var data := OutgoingFor(st.activeChat, st.conversationId, trimmed, file, t);
      var m := Optimistic(t, userId, userRole, trimmed, file, blobUrl, now, st.conversationId);
      Effect(st.(messages := st.messages + [m]), [PostMessage(data)])
  }

  /** The `sendMessage` acknowledgement: a failure removes every entry whose
      `_id` is the temporary id, keeping the others in order; a success
      leaves the list alone (the server copy arrives as `receiveMessage`). */
  function OnSendAck(st: State, tempId: string, success: bool): (r: State)
    ensures r == st.(messages := r.messages)
    ensures success ==> r == st
    ensures !success ==> forall m :: m in r.messages <==> m in st.messages && m.id != Has(tempId)
    ensures !success ==> r.messages == RemoveId(st.messages, tempId)
  {
    if success then st else st.(messages := RemoveId(st.messages, tempId))
  }

  /** Send, then the server's copy of the message: the copy takes the
      optimistic entry's place, so the list is the old list plus the copy. */
  lemma EchoReplacesOptimisticEntry(st: State, text: string, file: Option<File>, userId: string,
                                    userRole: Maybe<string>, now: string, blobUrl: string,
                                    echo: Message)
    requires st.hasSocket && st.activeChat.Some? && !(Blank(text) && file.None?)
    requires forall j :: 0 <= j < |st.messages| ==> st.messages[j].tempId != Has(TempId(userId, now))
    requires echo.tempId == Has(TempId(userId, now)) && echo.conversationId == st.conversationId
    ensures var sent := SendMessage(st, text, file, userId, userRole, now, blobUrl).state;
            && |Receive(sent, echo).messages| == |sent.messages|
            && Receive(sent, echo).messages == st.messages + [echo]
  {
    var t := TempId(userId, now);
    var sent := SendMessage(st, text, file, userId, userRole, now, blobUrl).state;
    var n := |st.messages|;
    assert sent.messages == st.messages + [sent.messages[n]];
    assert FirstClaim(sent.messages, echo, Guarded, n);
    forall k | FirstClaim(sent.messages, echo, Guarded, k)
      ensures k == n
    {
    }
  }

  /** Send, then a failed acknowledgement: the state is the one before the
      send. */
  lemma FailedAckUndoesSend(st: State, text: string, file: Option<File>, userId: string,
                            userRole: Maybe<string>, now: string, blobUrl: string)
    requires st.hasSocket && st.activeChat.Some? && !(Blank(text) && file.None?)
    requires forall j :: 0 <= j < |st.messages| ==> st.messages[j].id != Has(TempId(userId, now))
    ensures OnSendAck(SendMessage(st, text, file, userId, userRole, now, blobUrl).state,
                      TempId(userId, now), false) == st
  {
    var t := TempId(userId, now);
    var sent := SendMessage(st, text, file, userId, userRole, now, blobUrl).state;
    var n := |st.messages|;
    assert sent.messages == st.messages + [sent.messages[n]];
    RollbackUndoesAppend(st.messages, sent.messages[n], t);
  }

  /** The compose bar sends on Enter without checking for content; with
      blank text and no file this container's guard turns the send into a
      no-op. */
  lemma EnterOnEmptyComposeSendsNothing(input: ChatInput.State, st: State, userId: string,
                                        userRole: Maybe<string>, now: string, blobUrl: string)
    requires ChatInput.SendDisabled(input)
    ensures var s := ChatInput.KeyPress(input, "Enter").value;
            SendMessage(st, s.text, s.file, userId, userRole, now, blobUrl) == Effect(st, [])
  {
  }
}

=== FILE: chat_model.dfy ===
/** The records the chat components exchange with the chat server, and the
    message-list reducers both optimistic chat revisions share
    (src/components/chat/ChatLayout.jsx and src/components/chat/ChatWindow.jsx). */
module ChatModel {
  import opened Js

  /** A browser `File` as the components read it. */
  datatype File = File(name: string, mimeType: string, size: nat)

  /** The populated `senderId` object of a message. */
  datatype Sender = Sender(id: Maybe<string>, fullName: Maybe<string>, role: Maybe<string>)

  /** The populated `replyTo` object of a message. */
  datatype ReplyRef = ReplyRef(
    id: Maybe<string>,
    sender: Maybe<Sender>,
    text: Maybe<string>,
    fileKey: Maybe<string>,
    fileType: Maybe<string>)

  /** A chat message, either confirmed by the server or optimistic. */
  datatype Message = Message(
    id: Maybe<string>,
    tempId: Maybe<string>,
    sender: Maybe<Sender>,
    conversationId: Maybe<string>,
    text: Maybe<string>,
    fileKey: Maybe<string>,
    fileType: Maybe<string>,
    originalFileName: Maybe<string>,
    timestamp: Maybe<string>,
    isOptimistic: bool,
    replyTo: Maybe<ReplyRef>)

  /** The selected chat: a user record (which has a `fullName`) or a ticket
      record (which has a `ticketId`); both carry `_id`. */
  datatype Chat = Chat(id: Maybe<string>, fullName: Maybe<string>, ticketId: Maybe<string>)

  /** Where a chat's room lives: a direct conversation with a user or the
      group conversation of a ticket. */
  datatype Target = Direct(userId: Maybe<string>) | TicketRoom(ticketId: Maybe<string>)

  /** The source tells the two kinds of chat apart by the truthiness of
      `fullName`; the room id is the record's `_id` in both cases. */
  function TargetOf(c: Chat): (t: Target)
    ensures t.Direct? <==> Truthy(c.fullName)
    ensures t == Direct(c.id) || t == TicketRoom(c.id)
  {
    if Truthy(c.fullName) then Direct(c.id) else TicketRoom(c.id)
  }

  /** The socket event that joins a target's room. */
  function JoinEvent(t: Target): (e: string)
    ensures e == "joinDirectChatRoom" || e == "joinTicketRoom"
    ensures e == "joinDirectChatRoom" <==> t.Direct?
  {
    match t
    case Direct(_) => "joinDirectChatRoom"
    case TicketRoom(_) => "joinTicketRoom"
  }

  /** The id sent with the join event. */
  function RoomId(t: Target): Maybe<string> {
    match t
    case Direct(u) => u
    case TicketRoom(k) => k
  }

  /** The payload of a `sendMessage` emit (the file bytes are not modelled). */
  datatype Outgoing = Outgoing(
    conversationId: Maybe<string>,
    ticketId: Maybe<string>,
    receiverId: Maybe<string>,
    text: string,
    originalFileName: Maybe<string>,
    tempId: string,
    fileType: Maybe<string>)

  /** Requests the optimistic chat clients emit on the socket. */
  datatype Request =
    | JoinRoom(event: string, roomId: Maybe<string>)
    | FetchMessages(payload: Target)
    | CheckUserStatus(userId: Maybe<string>)
    | PostMessage(data: Outgoing)

  /** `${userId}-${Date.now()}`, with the clock reading as an input. */
  function TempId(userId: string, now: string): (t: string)
    ensures |t| > |userId| && t[|userId|] == '-'
    ensures t[..|userId|] == userId && t[|userId| + 1..] == now
  {
    userId + "-" + now
  }

  /** The requests a successful join leads to: the history fetch, and for
      a direct chat also the presence query for the counterpart. */
  function JoinFollowUps(t: Target, success: bool): (r: seq<Request>)
    ensures !success ==> r == []
    ensures success ==> |r| >= 1 && r[0] == FetchMessages(t)
    ensures success ==> (|r| == 2 <==> t.Direct?)
    ensures success && t.Direct? ==> r[1] == CheckUserStatus(t.userId)
  {
    if !success then []
    else if t.Direct? then [FetchMessages(t), CheckUserStatus(t.userId)]
    else [FetchMessages(t)]
  }

  /** The message-data object of a send: `ticketId` only for a ticket target,
      `receiverId` only for a direct one. A missing chat counts as a ticket
      target whose id is `undefined` (`activeChat?._id`). */
  function OutgoingFor(active: Option<Chat>, conversationId: Maybe<string>, text: string,
                       file: Option<File>, tempId: string): (o: Outgoing)
    ensures var direct := active.Some? && TargetOf(active.value).Direct?;
            && (direct ==> o.receiverId == active.value.id && o.ticketId == Null)
            && (!direct ==> o.receiverId == Null)
            && (!direct && active.Some? ==> o.ticketId == active.value.id)
    ensures o.conversationId == conversationId && o.text == text && o.tempId == tempId
    ensures o.originalFileName == (if file.Some? then Has(file.value.name) else Null)
  {
    var direct := active.Some? && Truthy(active.value.fullName);
    var id := if active.Some? then active.value.id else Undefined;
    Outgoing(
      conversationId,
      if direct then Null else id,
      if direct then id else Null,
      text,
      if file.Some? then Has(file.value.name) else Null,
      tempId,
      if file.Some? then Has(file.value.mimeType) else Null)
  }

  /** The entry appended before the server answers: `_id` and `tempId` are
      the temporary id, the sender is the current user labelled "You", and a
      selected file is shown through the object URL created for it. The
      entry's `timestamp` is the same clock reading `now` that names the
      temporary id; the source takes a second reading as an ISO string, and
      that format is not modelled. */
  function Optimistic(tempId: string, userId: string, userRole: Maybe<string>, text: string,
                      file: Option<File>, blobUrl: string, now: string,
                      conversationId: Maybe<string>): (m: Message)
    ensures m.id == Has(tempId) && m.tempId == Has(tempId) && m.isOptimistic
    ensures m.text == Has(text) && m.conversationId == conversationId
    ensures m.fileKey.Has? <==> file.Some?
    ensures file.Some? ==> m.fileKey == Has(blobUrl) && m.fileType == Has(file.value.mimeType)
    ensures m.sender == Has(Sender(Has(userId), Has("You"), userRole))
  {
    Message(
      Has(tempId), Has(tempId),
      Has(Sender(Has(userId), Has("You"), userRole)),
      conversationId,
      Has(text),
      if file.Some? then Has(blobUrl) else Null,
      if file.Some? then Has(file.value.mimeType) else Null,
      if file.Some? then Has(file.value.name) else Null,
      Has(now),
      true,
      Undefined)
  }

  /** The two `findIndex` predicates of the source: the ChatLayout revision
      requires the existing entry's tempId to be truthy, the ChatWindow
      revision compares the two tempIds with plain `===`. */
  datatype Match = Guarded | Unguarded

  predicate Claims(how: Match, existing: Message, inbound: Message) {
    match how
    case Guarded => Truthy(existing.tempId) && existing.tempId == inbound.tempId
    case Unguarded => existing.tempId == inbound.tempId
  }

  /** `prev.findIndex(...)`: the first entry that claims the inbound message. */
  function FindClaim(s: seq<Message>, inbound: Message, how: Match): (r: Option<nat>)
    ensures r.Some? ==> r.value < |s| && Claims(how, s[r.value], inbound)
    ensures r.Some? ==> forall j :: 0 <= j < r.value ==> !Claims(how, s[j], inbound)
    ensures r.None? ==> forall j :: 0 <= j < |s| ==> !Claims(how, s[j], inbound)
  {
    if s == [] then None
    else if Claims(how, s[0], inbound) then Some(0)
    else match FindClaim(s[1..], inbound, how)
      case None => None
      case Some(k) => Some(k + 1)
  }

  /** Some entry of `s` claims the inbound message. */
  predicate Claimed(s: seq<Message>, inbound: Message, how: Match) {
    exists j :: 0 <= j < |s| && Claims(how, s[j], inbound)
  }

  /** `k` is the first entry of `s` that claims the inbound message. */
  predicate FirstClaim(s: seq<Message>, inbound: Message, how: Match, k: int) {
    && 0 <= k < |s| && Claims(how, s[k], inbound)
    && forall j :: 0 <= j < k ==> !Claims(how, s[j], inbound)
  }

  /** The `setMessages` updater of `receiveMessage`: the first claiming entry
      is replaced in place (same length, every other position unchanged),
      otherwise the message is appended after an unchanged prefix. */
  function Reconcile(s: seq<Message>, inbound: Message, how: Match): (r: seq<Message>)
    ensures Claimed(s, inbound, how) ==>
              exists k :: FirstClaim(s, inbound, how, k) && r == s[k := inbound]
    ensures !Claimed(s, inbound, how) ==> r == s + [inbound]
  {
    match FindClaim(s, inbound, how)
    case Some(k) =>
      assert FirstClaim(s, inbound, how, k);
      s[k := inbound]
    case None => s + [inbound]
  }

  /** When the inbound message carries a truthy tempId, the guarded and the
      unguarded `findIndex` pick the same entry, so both revisions agree. */
  lemma {:induction false} FindClaimRevisionsAgree(s: seq<Message>, inbound: Message)
    requires Truthy(inbound.tempId)
    ensures FindClaim(s, inbound, Guarded) == FindClaim(s, inbound, Unguarded)
  {
    if s != [] {
      FindClaimRevisionsAgree(s[1..], inbound);
    }
  }

  lemma ReconcileRevisionsAgree(s: seq<Message>, inbound: Message)
    requires Truthy(inbound.tempId)
    ensures Reconcile(s, inbound, Guarded) == Reconcile(s, inbound, Unguarded)
  {
    FindClaimRevisionsAgree(s, inbound);
  }

  /** `prev.filter(m => m._id !== tempId)`: the rollback of a failed send. */
  function RemoveId(s: seq<Message>, tempId: string): (r: seq<Message>)
    ensures |r| <= |s|
    ensures forall m :: m in r <==> m in s && m.id != Has(tempId)
  {
    if s == [] then []
    else (if s[0].id == Has(tempId) then [] else [s[0]]) + RemoveId(s[1..], tempId)
  }

  /** Filtering distributes over concatenation, so the survivors keep their
      relative order. */
  lemma {:induction false} RemoveIdAppend(a: seq<Message>, b: seq<Message>, tempId: string)
    ensures RemoveId(a + b, tempId) == RemoveId(a, tempId) + RemoveId(b, tempId)
  {
    if a != [] {
      var head := if a[0].id == Has(tempId) then [] else [a[0]];
      assert (a + b)[0] == a[0];
      assert (a + b)[1..] == a[1..] + b;
      RemoveIdAppend(a[1..], b, tempId);
      calc {
        RemoveId(a + b, tempId);
        head + RemoveId(a[1..] + b, tempId);
        head + (RemoveId(a[1..], tempId) + RemoveId(b, tempId));
        (head + RemoveId(a[1..], tempId)) + RemoveId(b, tempId);
        RemoveId(a, tempId) + RemoveId(b, tempId);
      }
    } else {
      assert a + b == b;
    }
  }

  /** A list with no entry carrying the id is left exactly as it is. */
  lemma {:induction false} RemoveIdAbsent(s: seq<Message>, tempId: string)
    requires forall j :: 0 <= j < |s| ==> s[j].id != Has(tempId)
    ensures RemoveId(s, tempId) == s
  {
    if s != [] {
      RemoveIdAbsent(s[1..], tempId);
    }
  }

  /** Rolling back an appended entry restores the list it was appended to,
      as long as no earlier entry shares its id. */
  lemma RollbackUndoesAppend(s: seq<Message>, entry: Message, tempId: string)
    requires entry.id == Has(tempId)
    requires forall j :: 0 <= j < |s| ==> s[j].id != Has(tempId)
    ensures RemoveId(s + [entry], tempId) == s
  {
    RemoveIdAppend(s, [entry], tempId);
    RemoveIdAbsent(s, tempId);
  }

  /** `{ ...prev, [userId]: online }`: one presence entry is set, the others
      are kept. */
  function SetPresence(online: map<string, bool>, userId: string, isOnline: bool): (r: map<string, bool>)
    ensures r.Keys == online.Keys + {userId}
    ensures r[userId] == isOnline
    ensures forall u :: u in online && u != userId ==> r[u] == online[u]
  {
    online[userId := isOnline]
  }
}

=== FILE: chat_window.dfy ===
/** The single-component optimistic chat (src/components/chat/ChatWindow.jsx):
    the same message list as the ChatLayout revision, plus the enable flag,
    the compose text and the attachment picker kept in the same component.
    Its `receiveMessage` compares tempIds with plain `===`. */
module ChatWindow {
  import opened Js
  import opened ChatModel
  import ChatLayout

  /** The component state: socket presence, `activeChat`, `messages`,
      `onlineUsers`, `currentConversationId`, `isChatDisabled`, `newMessage`,
      `selectedFile` and `filePreview`. */
  datatype State = State(
    hasSocket: bool,
    activeChat: Option<Chat>,
    messages: seq<Message>,
    online: map<string, bool>,
    conversationId: Maybe<string>,
    disabled: bool,
    compose: string,
    file: Option<File>,
    preview: Option<string>)

  function Init(hasSocket: bool): (st: State)
    ensures st.disabled && st.messages == [] && st.conversationId == Null
    ensures st.compose == [] && st.file.None? && st.preview.None?
  {
    State(hasSocket, None, [], map[], Null, true, [], None, None)
  }

  datatype Effect = Effect(state: State, requests: seq<Request>)

  /** The `receiveMessage` handler: a message of another conversation is
      dropped; otherwise the first entry whose tempId is `===` to the
      inbound tempId is replaced, or the message is appended. */
  function Receive(st: State, inbound: Message): (r: State)
    ensures r == st.(messages := r.messages)
    ensures inbound.conversationId != st.conversationId ==> r == st
    ensures inbound.conversationId == st.conversationId && Claimed(st.messages, inbound, Unguarded) ==>
              exists k :: FirstClaim(st.messages, inbound, Unguarded, k)
                          && r.messages == st.messages[k := inbound]
    ensures inbound.conversationId == st.conversationId && !Claimed(st.messages, inbound, Unguarded) ==>
              r.messages == st.messages + [inbound]
  {
    if inbound.conversationId == st.conversationId then
      st.(messages := Reconcile(st.messages, inbound, Unguarded))
    else st
  }

  /** The flaw of the plain `===`: a history entry without a tempId is
      overwritten by the next inbound message without one (here a message
      from the other party), and the history entry disappears. */
  lemma UntaggedInboundOverwritesHistory(st: State, earlier: Message, inbound: Message)
    requires st.messages == [earlier]
    requires earlier.tempId == Undefined && inbound.tempId == Undefined && earlier != inbound
    requires inbound.conversationId == st.conversationId
    ensures Receive(st, inbound).messages == [inbound]
    ensures earlier !in Receive(st, inbound).messages
  {
    assert Claims(Unguarded, st.messages[0], inbound);
    assert FirstClaim(st.messages, inbound, Unguarded, 0);
  }

  /** For the server copy of an optimistic send, which echoes a truthy
      tempId, this revision behaves exactly like the guarded one. */
  lemma TaggedInboundAsInGuardedRevision(st: State, inbound: Message)
    requires Truthy(inbound.tempId)
    ensures inbound.conversationId == st.conversationId ==>
              Receive(st, inbound).messages == Reconcile(st.messages, inbound, Guarded)
  {
    ReconcileRevisionsAgree(st.messages, inbound);
  }

  /** The three presence writers of this revision, `userOnline` (true),
      `userOffline` (false) and the `checkUserStatus` reply (the reported
      status, under the joined id rendered as a key), share one shape: one
      entry is set and every other entry is kept. */
  function Presence(st: State, key: string, isOnline: bool): (r: State)
    ensures r == st.(online := r.online)
    ensures r.online.Keys == st.online.Keys + {key} && r.online[key] == isOnline
    ensures forall u :: u in st.online && u != key ==> r.online[u] == st.online[u]
  {
    st.(online := SetPresence(st.online, key, isOnline))
  }

  /** Presence evolves in this revision exactly as in the container. */
  lemma PresenceAsInContainer(st: State, other: ChatLayout.State, userId: string, id: Maybe<string>, isOnline: bool)
    requires other.online == st.online
    ensures Presence(st, userId, true).online == ChatLayout.UserOnline(other, userId).online
    ensures Presence(st, userId, false).online == ChatLayout.UserOffline(other, userId).online
    ensures Presence(st, Str(id), isOnline).online == ChatLayout.OnUserStatus(other, id, isOnline).online
  {
  }

  /** The room-joining effect. Without a socket or a chat the chat is
      disabled, the list emptied and the id cleared; otherwise the target's
      room is joined. */
  function OnSelection(st: State): (e: Effect)
    ensures !st.hasSocket || st.activeChat.None? ==>
              e.state == st.(disabled := true, messages := [], conversationId := Null)
              && e.requests == []
    ensures st.hasSocket && st.activeChat.Some? ==>
              && e.state == st
              && |e.requests| == 1
              && e.requests[0] == JoinRoom(JoinEvent(TargetOf(st.activeChat.value)), st.activeChat.value.id)
  {
    if !st.hasSocket || st.activeChat.None? then
      Effect(st.(disabled := true, messages := [], conversationId := Null), [])
    else
      var t := TargetOf(st.activeChat.value);
      Effect(st, [JoinRoom(JoinEvent(t), RoomId(t))])
  }

  /** The join acknowledgement: success enables the chat and fetches the
      history (and a direct counterpart's status); failure disables it. */
  function OnJoinAck(st: State, t: Target, success: bool): (e: Effect)
    ensures e.state == st.(disabled := !success)
    ensures !success ==> e.requests == []
    ensures success ==> |e.requests| >= 1 && e.requests[0] == FetchMessages(t)
    ensures success ==> (|e.requests| == 2 <==> t.Direct?)
    ensures success && t.Direct? ==> e.requests[1] == CheckUserStatus(t.userId)
  {
    Effect(st.(disabled := !success), JoinFollowUps(t, success))
  }

  function OnHistory(st: State, history: seq<Message>, conversationId: Maybe<string>): (r: State)
    ensures r == st.(messages := history, conversationId := conversationId)
    ensures r.disabled == st.disabled && r.online == st.online
  {
    st.(messages := history, conversationId := conversationId)
  }

  /** The join flow end to end. For a chosen chat, the selection joins
      its room; an accepted join enables the window and asks for the
      target's history first; the history reply then shows exactly that
      history under its conversation id, with the window still enabled.
      A refused join leaves the window disabled and asks for nothing. */
  lemma JoinedChatShowsItsHistory(st: State, history: seq<Message>, conversationId: Maybe<string>)
    requires st.hasSocket && st.activeChat.Some?
    ensures var t := TargetOf(st.activeChat.value);
            var joined := OnSelection(st);
            var acked := OnJoinAck(joined.state, t, true);
            var after := OnHistory(acked.state, history, conversationId);
            && joined.requests == [JoinRoom(JoinEvent(t), st.activeChat.value.id)]
            && acked.requests[0] == FetchMessages(t)
            && after == st.(disabled := false, messages := history, conversationId := conversationId)
    ensures var refused := OnJoinAck(OnSelection(st).state, TargetOf(st.activeChat.value), false);
            && refused.state == st.(disabled := true) && refused.requests == []
  {
  }

  /** The attachment types this revision accepts. */
  const AllowedTypes: seq<string> := ["image/jpeg", "image/png", "image/gif", "application/pdf"]

  /** A preview is shown only while a file is selected. */
  predicate PreviewHasFile(st: State) {
    st.preview.Some? ==> st.file.Some?
  }

  /** `handleFileSelect`: no file, or a type outside the whitelist, leaves
      the selection and preview as they were; an accepted file becomes the
      selection. A PDF is previewed by its name at once, while an image
      keeps the old preview until the reader has its data URL
      (`OnPreviewRead`). */
  function SelectFile(st: State, picked: Option<File>): (r: State)
    ensures picked.None? || picked.value.mimeType !in AllowedTypes ==> r == st
    ensures picked.Some? && picked.value.mimeType in AllowedTypes ==>
              && r == st.(file := picked, preview := r.preview)
              && (picked.value.mimeType == "application/pdf" ==> r.preview == Some(picked.value.name))
              && (picked.value.mimeType != "application/pdf" ==> r.preview == st.preview)
  {
    match picked
    case None => st
    case Some(f) =>
      if f.mimeType !in AllowedTypes then st
      else if StartsWith(f.mimeType, "image") then
        assert "application/pdf"[0] != "image"[0];
        st.(file := picked)
      else st.(file := picked, preview := Some(f.name))
  }

  /** The image reader's `onloadend`: the data URL becomes the preview,
      whatever has happened to the selection since the read began. */
  function OnPreviewRead(st: State, dataUrl: string): (r: State)
    ensures r.preview == Some(dataUrl)
    ensures r.(preview := st.preview) == st
  {
    st.(preview := Some(dataUrl))
  }

  /** The reader's completion as evidently intended: the data URL becomes
      the preview only while the file that was read is still selected. */
  function OnPreviewReadGuarded(st: State, read: File, dataUrl: string): (r: State)
    ensures st.file == Some(read) ==> r == st.(preview := Some(dataUrl))
    ensures st.file != Some(read) ==> r == st
  {
    if st.file == Some(read) then st.(preview := Some(dataUrl)) else st
  }

  /** The attachment's X button: the file and its preview go. */
  function ClearAttachment(st: State): (r: State)
    ensures r == st.(file := None, preview := None)
    ensures PreviewHasFile(r)
  {
    st.(file := None, preview := None)
  }

  /** `sendMessage()`. Without a socket, while disabled, or with blank text
      and no file nothing happens. Otherwise one optimistic entry is
      appended, the compose text, file and preview are cleared, and one
      `sendMessage` request carries the trimmed text and temporary id. */
  function Send(st: State, userId: string, userRole: Maybe<string>, now: string, blobUrl: string): (e: Effect)
    ensures !st.hasSocket || st.disabled || (Blank(st.compose) && st.file.None?) ==> e == Effect(st, [])
    ensures st.hasSocket && !st.disabled && !(Blank(st.compose) && st.file.None?) ==>
              var t := TempId(userId, now);
              && e.state == st.(messages := e.state.messages, compose := [], file := None, preview := None)
              && |e.state.messages| == |st.messages| + 1
              && e.state.messages[..|st.messages|] == st.messages
              && var m := e.state.messages[|st.messages|];
              && m.id == Has(t) && m.isOptimistic && m.text == Has(Trim(st.compose))
              && m.conversationId == st.conversationId
              && (m.fileKey.Has? <==> st.file.Some?)
              && |e.requests| == 1 && e.requests[0].PostMessage?
              && var o := e.requests[0].data;
              && o.tempId == t && o.text == Trim(st.compose) && o.conversationId == st.conversationId
              && (st.activeChat.Some? && TargetOf(st.activeChat.value).Direct? ==>
                    o.receiverId == st.activeChat.value.id && o.ticketId == Null)
              && (st.activeChat.Some? && TargetOf(st.activeChat.value).TicketRoom? ==>
                    o.ticketId == st.activeChat.value.id && o.receiverId == Null)
  {
    if !st.hasSocket || st.disabled || (Blank(st.compose) && st.file.None?) then Effect(st, [])
    else
      var t := TempId(userId, now);
      var trimmed := Trim(st.compose);
      var data := OutgoingFor(st.activeChat, st.conversationId, trimmed, st.file, t);
      var m := Optimistic(t, userId, userRole, trimmed, st.file, blobUrl, now, st.conversationId);
      Effect(st.(messages := st.messages + [m], compose := [], file := None, preview := None),
             [PostMessage(data)])
  }

  /** Sending while no chat is active but the chat is enabled addresses the
      ticket field with `undefined` (`activeChat?._id`) and no receiver. */
  lemma SendWithoutChatTargetsUndefinedTicket(st: State, userId: string, userRole: Maybe<string>,
                                              now: string, blobUrl: string)
    requires st.hasSocket && !st.disabled && st.file.Some? && st.activeChat.None?
    ensures var e := Send(st, userId, userRole, now, blobUrl);
            e.requests[0].data.ticketId == Undefined && e.requests[0].data.receiverId == Null
  {
  }

  /** The `sendMessage` acknowledgement: a failure removes the entries whose
      `_id` is the temporary id. */
  function OnSendAck(st: State, tempId: string, success: bool): (r: State)
    ensures r == st.(messages := r.messages)
    ensures success ==> r.messages == st.messages
    ensures !success ==> forall m :: m in r.messages <==> m in st.messages && m.id != Has(tempId)
    ensures !success ==> r.messages == RemoveId(st.messages, tempId)
  {
    if success then st else st.(messages := RemoveId(st.messages, tempId))
  }

  /** A failed acknowledgement removes the optimistic entry again but does
      not bring back the cleared compose text or file. */
  lemma FailedAckRestoresListOnly(st: State, userId: string, userRole: Maybe<string>,
                                  now: string, blobUrl: string)
    requires st.hasSocket && !st.disabled && !(Blank(st.compose) && st.file.None?)
    requires forall j :: 0 <= j < |st.messages| ==> st.messages[j].id != Has(TempId(userId, now))
    ensures var after := OnSendAck(Send(st, userId, userRole, now, blobUrl).state,
                                   TempId(userId, now), false);
            after == st.(compose := [], file := None, preview := None)
  {
    var sent := Send(st, userId, userRole, now, blobUrl).state;
    var n := |st.messages|;
    assert sent.messages == st.messages + [sent.messages[n]];
    RollbackUndoesAppend(st.messages, sent.messages[n], TempId(userId, now));
  }

  /** Sending before the image reader is done: the send clears the file
      and the preview, and the late `onloadend` brings a preview back with
      no file behind it. */
  lemma SendBeforeReadLeavesStalePreview(st: State, image: File, userId: string, userRole: Maybe<string>,
                                         now: string, blobUrl: string, dataUrl: string)
    requires st.hasSocket && !st.disabled && image.mimeType == "image/png"
    ensures var picked := SelectFile(st, Some(image));
            var late := OnPreviewRead(Send(picked, userId, userRole, now, blobUrl).state, dataUrl);
            late.preview == Some(dataUrl) && late.file.None? && !PreviewHasFile(late)
  {
    assert StartsWith(image.mimeType, "image");
  }

  /** With the guarded reader, every handler that touches the attachment
      keeps the preview tied to a selected file. */
  lemma PreviewHasFileInvariant(st: State, picked: Option<File>, read: File, dataUrl: string,
                                userId: string, userRole: Maybe<string>, now: string, blobUrl: string,
                                tempId: string, success: bool)
    requires PreviewHasFile(st)
    ensures PreviewHasFile(SelectFile(st, picked))
    ensures PreviewHasFile(ClearAttachment(st))
    ensures PreviewHasFile(OnPreviewReadGuarded(st, read, dataUrl))
    ensures PreviewHasFile(Send(st, userId, userRole, now, blobUrl).state)
    ensures PreviewHasFile(OnSendAck(st, tempId, success))
  {
  }

  /** The send button's `disabled`: a disabled chat, or blank text and no
      file. */
  predicate SendButtonDisabled(st: State) {
    st.disabled || (Blank(st.compose) && st.file.None?)
  }

  /** `onKeyPress`: Enter sends unless the chat is disabled; other keys do
      nothing. */
  function KeyPress(st: State, key: string, userId: string, userRole: Maybe<string>,
                    now: string, blobUrl: string): (e: Effect)
    ensures key != "Enter" || st.disabled ==> e == Effect(st, [])
    ensures key == "Enter" && !st.disabled ==> e == Send(st, userId, userRole, now, blobUrl)
  {
    if key == "Enter" && !st.disabled then Send(st, userId, userRole, now, blobUrl) else Effect(st, [])
  }

  /** With a socket, the button is disabled exactly when a send would do
      nothing, so the button and the handler's own guard agree. */
  lemma SendButtonMatchesGuard(st: State, userId: string, userRole: Maybe<string>,
                               now: string, blobUrl: string)
    requires st.hasSocket
    ensures SendButtonDisabled(st) <==> Send(st, userId, userRole, now, blobUrl) == Effect(st, [])
  {
    if !SendButtonDisabled(st) {
      var e := Send(st, userId, userRole, now, blobUrl);
      assert |e.requests| == 1;
    }
  }
}

=== FILE: file_display.dfy ===
/** The attachment view of a chat message (src/components/FileDisplay.jsx):
    the decision how to obtain the file, the proxy URL, the effect's
    mounted flag and blob-URL lifecycle as a small state machine, and the
    choice of what to render. Network responses, `URL.createObjectURL`
    results and the effect's cleanup are events fed to the machine. */
module FileDisplay {
  import opened Js
  import opened ChatModel

  /** How the effect obtains the file: not at all, from the optimistic
      entry's own blob URL, or by an authorised fetch through the proxy. */
  datatype Decision = Skip | UseLocal(url: string) | Fetch(url: string, authorization: string)

  /** `${API_BASE_URL}/files/${fileKey}?conversationId=${conversationId}`. */
  function ProxyUrl(base: string, fileKey: string, conversationId: string): (r: string)
    ensures StartsWith(r, base + "/files/")
    ensures |r| == |base| + 7 + |fileKey| + 16 + |conversationId|
  {
    base + "/files/" + fileKey + "?conversationId=" + conversationId
  }

  /** The position of the first `?` in `s`, or `|s|` if there is none. */
  function QueryStart(s: string): (n: nat)
    ensures n <= |s|
    ensures forall i :: 0 <= i < n ==> s[i] != '?'
    ensures n < |s| ==> s[n] == '?'
  {
    if s == [] || s[0] == '?' then 0 else 1 + QueryStart(s[1..])
  }

  /** The reading of a proxy URL by the file route: the key is the path
      segment after `/files/` up to the query, the conversation id the
      value of the one query parameter. */
  function ParseProxyUrl(base: string, url: string): (r: Option<(string, string)>)
    ensures r.Some? ==> '?' !in r.value.0
  {
    var prefix := base + "/files/";
    if !StartsWith(url, prefix) then None
    else
      var rest := url[|prefix|..];
      var q := QueryStart(rest);
      var query := rest[q..];
      if StartsWith(query, "?conversationId=") then
        assert forall c :: c in rest[..q] ==> c != '?';
        Some((rest[..q], query[16..]))
      else None
  }

  /** The proxy URL carries the key and the conversation id unambiguously
      as long as the key has no `?`. */
  lemma ProxyUrlRoundTrip(base: string, fileKey: string, conversationId: string)
    requires '?' !in fileKey
    ensures ParseProxyUrl(base, ProxyUrl(base, fileKey, conversationId)) == Some((fileKey, conversationId))
  {
    var url := ProxyUrl(base, fileKey, conversationId);
    var prefix := base + "/files/";
    var rest := url[|prefix|..];
    assert rest == fileKey + "?conversationId=" + conversationId;
    QueryStartAfter(fileKey, "?conversationId=" + conversationId);
    assert rest[..|fileKey|] == fileKey;
    assert rest[|fileKey|..] == "?conversationId=" + conversationId;
  }

  /** `QueryStart` stops at the first `?` after a `?`-free prefix. */
  lemma {:induction false} QueryStartAfter(a: string, b: string)
    requires '?' !in a && b != [] && b[0] == '?'
    ensures QueryStart(a + b) == |a|
  {
    if a != [] {
      assert (a + b)[1..] == a[1..] + b;
      QueryStartAfter(a[1..], b);
    } else {
      assert a + b == b;
    }
  }

  /** The first step of the effect. A missing file key, token or
      conversation id skips; an optimistic entry whose key is a blob URL is
      shown directly; anything else, an optimistic non-blob key included,
      is fetched with a bearer header. */
  function Decide(msg: Message, token: Maybe<string>, base: string, conversationId: Maybe<string>): (d: Decision)
    ensures d.Skip? <==> !Truthy(msg.fileKey) || !Truthy(token) || !Truthy(conversationId)
    ensures d.UseLocal? <==> !d.Skip? && msg.isOptimistic && StartsWith(msg.fileKey.value, "blob:")
    ensures d.UseLocal? ==> d.url == msg.fileKey.value
    ensures d.Fetch? ==>
              && d.url == ProxyUrl(base, msg.fileKey.value, conversationId.value)
              && d.authorization == "Bearer " + token.value
  {
    if !Truthy(msg.fileKey) || !Truthy(token) || !Truthy(conversationId) then Skip
    else if msg.isOptimistic && StartsWith(msg.fileKey.value, "blob:") then UseLocal(msg.fileKey.value)
    else Fetch(ProxyUrl(base, msg.fileKey.value, conversationId.value), "Bearer " + token.value)
  }

  /** The two pieces of component state the effect writes. */
  datatype View = View(objectUrl: Option<string>, loading: bool)

  /** One run of the effect: the component state it writes, its closure's
      `isMounted` and `tempURL`, the URLs it has revoked, and whether a
      fetch is outstanding. */
  datatype Run = Run(view: View, mounted: bool, tempUrl: Option<string>, revoked: seq<string>, awaiting: bool)

  /** What can happen to a running effect: the fetch settles (with the
      object URL the browser would create for the body), or React runs the
      cleanup. A failed status and a failed body read are both `ok == false`. */
  datatype Event = Response(ok: bool, created: string) | Cleanup

  /** The synchronous part of the effect, from the component's state. */
  function Start(view: View, d: Decision): (r: Run)
    ensures r.mounted && r.tempUrl.None? && r.revoked == []
    ensures r.awaiting <==> d.Fetch?
    ensures d.Skip? ==> r.view == view.(loading := false)
    ensures d.UseLocal? ==> r.view == View(Some(d.url), false)
    ensures d.Fetch? ==> r.view == view.(loading := true)
  {
    match d
    case Skip => Run(view.(loading := false), true, None, [], false)
    case UseLocal(u) => Run(View(Some(u), false), true, None, [], false)
    case Fetch(_, _) => Run(view.(loading := true), true, None, [], true)
  }

  /** The cleanup: clears the mounted flag and revokes this run's own URL
      if it is a blob URL. React runs it once; a second request is
      ignored. */
  function OnCleanup(r: Run): (s: Run)
    ensures !s.mounted && s.view == r.view && s.tempUrl == r.tempUrl && s.awaiting == r.awaiting
    ensures r.mounted && r.tempUrl.Some? && StartsWith(r.tempUrl.value, "blob:") ==>
              s.revoked == r.revoked + [r.tempUrl.value]
    ensures !(r.mounted && r.tempUrl.Some? && StartsWith(r.tempUrl.value, "blob:")) ==> s.revoked == r.revoked
  {
    if !r.mounted then r
    else if r.tempUrl.Some? && StartsWith(r.tempUrl.value, "blob:") then
      r.(mounted := false, revoked := r.revoked + [r.tempUrl.value])
    else r.(mounted := false)
  }

  /** The settling of the fetch as written: the object URL is kept in
      `tempURL` in any case, stored and the loading flag cleared only while
      mounted. */
  function Step(r: Run, e: Event): (s: Run)
    ensures !r.mounted ==> s.view == r.view
    ensures e.Response? && r.awaiting && r.mounted ==>
              && s.view.loading == false
              && (e.ok ==> s.view.objectUrl == Some(e.created))
              && (!e.ok ==> s.view.objectUrl == r.view.objectUrl)
  {
    match e
    case Cleanup => OnCleanup(r)
    case Response(ok, created) =>
      if !r.awaiting then r
      else
        var temp := if ok then Some(created) else r.tempUrl;
        var url := if ok && r.mounted then Some(created) else r.view.objectUrl;
        var loading := if r.mounted then false else r.view.loading;
        r.(view := View(url, loading), tempUrl := temp, awaiting := false)
  }

  function RunAll(r: Run, events: seq<Event>): Run
    decreases |events|
  {
    if events == [] then r else RunAll(Step(r, events[0]), events[1..])
  }

  /** `if (isMounted)`: once the cleanup has run, no later event touches the
      component's state. */
  lemma {:induction false} UnmountedRunKeepsView(r: Run, events: seq<Event>)
    requires !r.mounted
    decreases |events|
    ensures RunAll(r, events).view == r.view
    ensures !RunAll(r, events).mounted
  {
    if events != [] {
      UnmountedRunKeepsView(Step(r, events[0]), events[1..]);
    }
  }

  /** Every URL a run revokes is its own `tempURL` and a blob URL, and it
      revokes at most one. */
  predicate RevokesOwnBlobOnly(r: Run) {
    && |r.revoked| <= 1
    && (forall i :: 0 <= i < |r.revoked| ==>
          Some(r.revoked[i]) == r.tempUrl && StartsWith(r.revoked[i], "blob:"))
    && (r.mounted ==> r.revoked == [])
  }

  lemma {:induction false} RevokesOwnBlobOnlyInvariant(r: Run, events: seq<Event>)
    requires RevokesOwnBlobOnly(r)
    requires r.awaiting ==> r.tempUrl.None? && r.revoked == []
    ensures RevokesOwnBlobOnly(RunAll(r, events))
    decreases |events|
  {
    if events != [] {
      var s := Step(r, events[0]);
      assert RevokesOwnBlobOnly(s);
      RevokesOwnBlobOnlyInvariant(s, events[1..]);
    }
  }

  /** A run starts by revoking nothing. */
  lemma StartRevokesNothing(view: View, d: Decision, events: seq<Event>)
    ensures RevokesOwnBlobOnly(RunAll(Start(view, d), events))
  {
    RevokesOwnBlobOnlyInvariant(Start(view, d), events);
  }

  /** The leak of the effect as written: when the cleanup comes before the
      response, the object URL created for the late body is neither stored
      nor revoked. */
  lemma LateBlobIsLeaked(view: View, d: Decision, created: string)
    requires d.Fetch? && StartsWith(created, "blob:")
    ensures var s := RunAll(Start(view, d), [Cleanup, Response(true, created)]);
            && s.tempUrl == Some(created) && !s.mounted && !s.awaiting
            && created !in s.revoked && s.view == Start(view, d).view
  {
    var r0 := Start(view, d);
    var r1 := Step(r0, Cleanup);
    var r2 := Step(r1, Response(true, created));
    assert RunAll(r0, [Cleanup, Response(true, created)]) == RunAll(r1, [Response(true, created)]);
    assert RunAll(r1, [Response(true, created)]) == RunAll(r2, []);
  }

  /** The settling as evidently intended: a body that arrives after the
      cleanup has its object URL revoked at once, as the cleanup would
      have done. */
  function StepFixed(r: Run, e: Event): (s: Run)
    ensures !r.mounted ==> s.view == r.view
    ensures e.Response? && r.awaiting && r.mounted ==> s == Step(r, e)
    ensures e.Response? && r.awaiting && !r.mounted && e.ok && StartsWith(e.created, "blob:") ==>
              s.revoked == r.revoked + [e.created]
  {
    match e
    case Cleanup => OnCleanup(r)
    case Response(ok, created) =>
      if r.awaiting && !r.mounted && ok && StartsWith(created, "blob:") then
        r.(tempUrl := Some(created), revoked := r.revoked + [created], awaiting := false)
      else Step(r, e)
  }

  function RunAllFixed(r: Run, events: seq<Event>): Run
    decreases |events|
  {
    if events == [] then r else RunAllFixed(StepFixed(r, events[0]), events[1..])
  }

  /** No leak with the fix: once the run is unmounted and settled, its
      blob URL, if it made one, has been revoked. */
  predicate NoLeak(r: Run) {
    !r.mounted && !r.awaiting && r.tempUrl.Some? && StartsWith(r.tempUrl.value, "blob:") ==>
      r.tempUrl.value in r.revoked
  }

  /** What has been made while mounted and not yet revoked is still held by
      the run, ready for the cleanup. */
  predicate Tracked(r: Run) {
    && NoLeak(r)
    && (r.awaiting ==> r.tempUrl.None?)
    && (r.mounted ==> r.revoked == [])
  }

  lemma {:induction false} FixedRunNeverLeaks(r: Run, events: seq<Event>)
    requires Tracked(r)
    ensures NoLeak(RunAllFixed(r, events))
    decreases |events|
  {
    if events != [] {
      var s := StepFixed(r, events[0]);
      assert Tracked(s);
      FixedRunNeverLeaks(s, events[1..]);
    }
  }

  lemma FixedEffectNeverLeaks(view: View, d: Decision, events: seq<Event>)
    ensures NoLeak(RunAllFixed(Start(view, d), events))
  {
    FixedRunNeverLeaks(Start(view, d), events);
  }

  /** What the component renders. */
  datatype Render =
    | Placeholder(caption: string, pdfIcon: bool)
    | Nothing
    | ImageView(url: string, alt: string)
    | FileLink(url: string, caption: string, pdfIcon: bool)

  /** `x || 'Attachment'` for the file name. */
  function NameOr(name: Maybe<string>, fallback: string): (r: string)
    ensures Truthy(name) ==> r == name.value
    ensures !Truthy(name) ==> r == fallback
  {
    if Truthy(name) then name.value else fallback
  }

  /** Loading shows a placeholder; then no URL shows nothing; an `image/`
      type shows the image; anything else a link to the file. */
  function RenderOf(msg: Message, view: View): (r: Render)
    ensures view.loading <==> r.Placeholder?
    ensures r.Nothing? <==> !view.loading && view.objectUrl.None?
    ensures r.ImageView? <==>
              !view.loading && view.objectUrl.Some? && Truthy(msg.fileType) && StartsWith(msg.fileType.value, "image/")
    ensures r.ImageView? ==> r.url == view.objectUrl.value
    ensures r.FileLink? ==> r.url == view.objectUrl.value
    ensures r.Placeholder? ==> r.caption == "Loading " + NameOr(msg.originalFileName, "Attachment") + "..."
  {
    var pdf := msg.fileType == Has("application/pdf");
    if view.loading then Placeholder("Loading " + NameOr(msg.originalFileName, "Attachment") + "...", pdf)
    else if view.objectUrl.None? then Nothing
    else if Truthy(msg.fileType) && StartsWith(msg.fileType.value, "image/") then
      ImageView(view.objectUrl.value, NameOr(msg.originalFileName, "Attachment"))
    else FileLink(view.objectUrl.value, NameOr(msg.originalFileName, "Attachment"), pdf)
  }

  /** A skipped fetch on a fresh component ends with nothing rendered. */
  lemma SkipRendersNothing(msg: Message, token: Maybe<string>, base: string, conversationId: Maybe<string>)
    requires !Truthy(msg.fileKey)
    ensures RenderOf(msg, Start(View(None, true), Decide(msg, token, base, conversationId)).view) == Nothing
  {
  }

  /** A failed fetch on a fresh component ends with nothing rendered. */
  lemma FailedFetchRendersNothing(msg: Message, d: Decision, created: string)
    requires d.Fetch?
    ensures RenderOf(msg, Step(Start(View(None, true), d), Response(false, created)).view) == Nothing
  {
  }

  /** The attachment of an optimistic send (see `ChatModel.Optimistic`) is
      shown at once from its own blob URL, without a fetch. */
  lemma OptimisticAttachmentShownLocally(tempId: string, userId: string, userRole: Maybe<string>,
                                         text: string, file: File, blobUrl: string, now: string,
                                         conversationId: string, token: string, base: string)
    requires StartsWith(blobUrl, "blob:") && conversationId != "" && token != ""
    ensures var msg := Optimistic(tempId, userId, userRole, text, Some(file), blobUrl, now, Has(conversationId));
            && Decide(msg, Has(token), base, Has(conversationId)) == UseLocal(blobUrl)
            && (StartsWith(file.mimeType, "image/") ==>
                  RenderOf(msg, Start(View(None, true), UseLocal(blobUrl)).view)
                  == ImageView(blobUrl, NameOr(Has(file.name), "Attachment")))
  {
  }
}

=== FILE: js.dfy ===
/** JavaScript value conventions shared by every component model: nullable
    slots, truthiness, template-literal rendering, and the few
    `String.prototype` / `Array.prototype` operations the components use. */
module Js {

  /** A JavaScript slot that may hold `undefined`, `null` or a value.
      Strict equality (`===`) on such slots is datatype equality:
      `undefined === undefined` holds, `undefined === null` does not. */
  datatype Maybe<+T> = Undefined | Null | Has(value: T)

  datatype Option<+T> = None | Some(value: T)

  /** Truthiness of a string slot: present, not null, and not "". */
  predicate Truthy(s: Maybe<string>) {
    s.Has? && s.value != ""
  }

  /** The rendering of a string slot inside a template literal `${x}`. */
  function Str(s: Maybe<string>): string {
    match s
    case Undefined => "undefined"
    case Null => "null"
    case Has(v) => v
  }

  /** The rendering of a string slot as a JSX child `{x}`: React renders
      `undefined` and `null` as nothing. */
  function JsxText(s: Maybe<string>): (r: string)
    ensures s.Has? ==> r == s.value
    ensures !s.Has? ==> r == ""
  {
    if s.Has? then s.value else ""
  }

  predicate StartsWith(s: string, prefix: string) {
    |prefix| <= |s| && s[..|prefix|] == prefix
  }

  /** The characters `String.prototype.trim` removes: ECMAScript WhiteSpace
      and LineTerminator code points. */
  predicate IsSpace(c: char) {
    || c == ' ' || c == '\t' || c == '\n' || c == '\r'
    || c == '\U{000B}' || c == '\U{000C}' || c == '\U{00A0}' || c == '\U{1680}'
    || ('\U{2000}' <= c <= '\U{200A}')
    || c == '\U{2028}' || c == '\U{2029}' || c == '\U{202F}' || c == '\U{205F}'
    || c == '\U{3000}' || c == '\U{FEFF}'
  }

  /** The number of white-space characters `s` starts with. */
  function LeadingSpaces(s: string): (n: nat)
    ensures n <= |s|
    ensures forall i :: 0 <= i < n ==> IsSpace(s[i])
    ensures n == |s| || !IsSpace(s[n])
  {
    if s == [] || !IsSpace(s[0]) then 0 else 1 + LeadingSpaces(s[1..])
  }

  /** The index at which the trailing white space of `s` begins. */
  function TrailingStart(s: string): (n: nat)
    ensures n <= |s|
    ensures forall i :: n <= i < |s| ==> IsSpace(s[i])
    ensures n == 0 || !IsSpace(s[n - 1])
  {
    if s == [] || !IsSpace(s[|s| - 1]) then |s| else TrailingStart(s[..|s| - 1])
  }

  /** `s.trim()`: the slice of `s` between its leading and trailing white
      space, empty when `s` is nothing but white space. */
  function Trim(s: string): (r: string)
    ensures r == [] <==> forall i :: 0 <= i < |s| ==> IsSpace(s[i])
    ensures r != [] ==>
              && LeadingSpaces(s) < TrailingStart(s)
              && r == s[LeadingSpaces(s)..TrailingStart(s)]
              && !IsSpace(r[0]) && !IsSpace(r[|r| - 1])
  {
    var a := LeadingSpaces(s);
    var b := TrailingStart(s);
    if a < b then s[a..b] else []
  }

  /** `!s.trim()`: nothing but white space. */
  predicate Blank(s: string) {
    Trim(s) == []
  }

  lemma {:induction false} TrimIdempotent(s: string)
    ensures Trim(Trim(s)) == Trim(s)
  {
    var r := Trim(s);
    if r != [] {
      assert LeadingSpaces(r) == 0;
      assert TrailingStart(r) == |r|;
    }
  }

  lemma TrimKeepsAbsentChar(s: string, c: char)
    ensures c !in s ==> c !in Trim(s)
  {
  }

  /** `s.split(sep)` for a one-character separator: the pieces between
      separators, including empty ones; `"".split(",")` is `[""]`. */
  function Split(s: string, sep: char): (r: seq<string>)
    ensures |r| >= 1
    ensures forall i :: 0 <= i < |r| ==> sep !in r[i]
    ensures sep !in s ==> r == [s]
  {
    if s == [] then [[]]
    else
      var rest := Split(s[1..], sep);
      if s[0] == sep then [[]] + rest
      else
        assert s == [s[0]] + s[1..];
        [[s[0]] + rest[0]] + rest[1..]
  }

  /** A string containing the separator splits into at least two
      pieces. */
  lemma {:induction false} SplitAtSeparator(s: string, sep: char)
    requires sep in s
    ensures |Split(s, sep)| >= 2
  {
    if s[0] != sep {
      assert sep in s[1..] by {
        var k :| 0 <= k < |s| && s[k] == sep;
        assert s[1..][k - 1] == sep;
      }
      SplitAtSeparator(s[1..], sep);
    }
  }

  /** `parts.join(sep)`. */
  function Join(parts: seq<string>, sep: string): string {
    if |parts| == 0 then []
    else if |parts| == 1 then parts[0]
    else parts[0] + sep + Join(parts[1..], sep)
  }

  /** Splitting loses nothing: joining the pieces with the separator gives
      the original string back. */
  lemma {:induction false} JoinSplit(s: string, sep: char)
    ensures Join(Split(s, sep), [sep]) == s
  {
    if s != [] {
      var rest := Split(s[1..], sep);
      JoinSplit(s[1..], sep);
      if s[0] == sep {
        assert Split(s, sep) == [[]] + rest;
        assert ([[]] + rest)[1..] == rest;
      } else {
        var parts := [[s[0]] + rest[0]] + rest[1..];
        assert Split(s, sep) == parts;
        if |rest| > 1 {
          assert parts[1..] == rest[1..];
          assert Join(rest, [sep]) == rest[0] + [sep] + Join(rest[1..], [sep]);
        }
      }
    }
  }

  /** `parts.map(p => p.trim()).filter(Boolean)`. */
  function TrimNonBlank(parts: seq<string>): (r: seq<string>)
    ensures |r| <= |parts|
    ensures forall i :: 0 <= i < |r| ==> r[i] != [] && Trim(r[i]) == r[i]
    ensures forall p :: p in parts && !Blank(p) ==> Trim(p) in r
    ensures (forall i :: 0 <= i < |parts| ==> ',' !in parts[i]) ==>
              forall i :: 0 <= i < |r| ==> ',' !in r[i]
  {
    if parts == [] then []
    else
      var rest := TrimNonBlank(parts[1..]);
      TrimIdempotent(parts[0]);
      TrimKeepsAbsentChar(parts[0], ',');
      if Blank(parts[0]) then rest else [Trim(parts[0])] + rest
  }

  /** Every entry kept is the trimmed form of some part. */
  lemma {:induction false} TrimNonBlankFromParts(parts: seq<string>, x: string)
    requires x in TrimNonBlank(parts)
    ensures exists p :: p in parts && !Blank(p) && x == Trim(p)
  {
    if parts != [] {
      if Blank(parts[0]) || x != Trim(parts[0]) {
        TrimNonBlankFromParts(parts[1..], x);
        var p :| p in parts[1..] && !Blank(p) && x == Trim(p);
        assert p in parts;
      }
    }
  }

  /** Trimming and filtering follows the pieces in order: the result for
      a longer list is the results for its two parts, one after the other. */
  lemma {:induction false} TrimNonBlankAppend(a: seq<string>, b: seq<string>)
    ensures TrimNonBlank(a + b) == TrimNonBlank(a) + TrimNonBlank(b)
  {
    if a == [] {
      assert a + b == b;
    } else {
      assert (a + b)[0] == a[0];
      assert (a + b)[1..] == a[1..] + b;
      TrimNonBlankAppend(a[1..], b);
    }
  }

  /** One piece gives its trimmed form, or nothing when it is blank. */
  lemma TrimNonBlankOfOne(p: string)
    ensures TrimNonBlank([p]) == if Blank(p) then [] else [Trim(p)]
  {
    assert [p][1..] == [];
  }

  /** Pieces whose trimmed forms are the non-empty entries give exactly
      those entries, in order. */
  lemma {:induction false} TrimNonBlankOfPadded(parts: seq<string>, entries: seq<string>)
    requires |parts| == |entries|
    requires forall i :: 0 <= i < |parts| ==> entries[i] != [] && Trim(parts[i]) == entries[i]
    ensures TrimNonBlank(parts) == entries
  {
    if parts != [] {
      TrimNonBlankOfPadded(parts[1..], entries[1..]);
      assert [entries[0]] + entries[1..] == entries;
    }
  }

  /** Entries that are already trimmed and non-empty pass unchanged. */
  lemma {:induction false} TrimNonBlankKeepsClean(parts: seq<string>)
    requires forall i :: 0 <= i < |parts| ==> parts[i] != [] && Trim(parts[i]) == parts[i]
    ensures TrimNonBlank(parts) == parts
  {
    if parts != [] {
      TrimNonBlankKeepsClean(parts[1..]);
    }
  }

  /** `String(s).split(",").map(t => t.trim()).filter(Boolean)`: the
      comma-separated entries of a list, trimmed, without blank entries.
      Every non-blank piece between commas shows up trimmed. */
  function CommaList(s: string): (r: seq<string>)
    ensures forall i :: 0 <= i < |r| ==> r[i] != [] && ',' !in r[i] && Trim(r[i]) == r[i]
    ensures forall p :: p in Split(s, ',') && !Blank(p) ==> Trim(p) in r
  {
    TrimNonBlank(Split(s, ','))
  }

  /** The list follows the text: the entry of the piece before the first
      comma, if any, comes before every entry of the rest. */
  lemma CommaListAfterHead(x: string, t: string)
    requires ',' !in x
    ensures CommaList(x + "," + t) == TrimNonBlank([x]) + CommaList(t)
    ensures CommaList(x + "," + t) == (if Blank(x) then [] else [Trim(x)]) + CommaList(t)
  {
    SplitAfterHead(x, ',', t);
    TrimNonBlankAppend([x], Split(t, ','));
    TrimNonBlankOfOne(x);
  }

  /** Nothing else reaches the list: every entry is a non-blank piece
      between commas, trimmed. */
  lemma CommaListFromPieces(s: string, x: string)
    requires x in CommaList(s)
    ensures exists p :: p in Split(s, ',') && !Blank(p) && x == Trim(p)
  {
    TrimNonBlankFromParts(Split(s, ','), x);
  }

  /** Splitting after a separator-free head: the head is the first piece. */
  lemma {:induction false} SplitAfterHead(x: string, sep: char, t: string)
    requires sep !in x
    ensures Split(x + [sep] + t, sep) == [x] + Split(t, sep)
  {
    if x == [] {
      assert x + [sep] + t == [sep] + t;
      assert ([sep] + t)[1..] == t;
    } else {
      SplitAfterHead(x[1..], sep, t);
      assert (x + [sep] + t)[1..] == x[1..] + [sep] + t;
      assert [x[0]] + x[1..] == x;
    }
  }

  /** Joining separator-free pieces and splitting again gives the pieces
      back. */
  lemma {:induction false} SplitJoin(parts: seq<string>, sep: char)
    requires |parts| >= 1
    requires forall i :: 0 <= i < |parts| ==> sep !in parts[i]
    ensures Split(Join(parts, [sep]), sep) == parts
  {
    if |parts| > 1 {
      SplitJoin(parts[1..], sep);
      SplitAfterHead(parts[0], sep, Join(parts[1..], [sep]));
      assert [parts[0]] + parts[1..] == parts;
    }
  }

  /** One leading space is trimmed off a trimmed, non-empty string. */
  lemma TrimLeadingSpace(x: string)
    requires x != [] && Trim(x) == x
    ensures Trim(" " + x) == x
  {
    var y := " " + x;
    assert y[1..] == x;
    assert !IsSpace(x[0]) && !IsSpace(x[|x| - 1]);
    assert LeadingSpaces(y) == 1;
    assert TrailingStart(y) == |y|;
  }

  /** Splitting entries joined by ", " on the comma: the first piece is the
      first entry, and every later piece is its entry after one space. */
  lemma {:induction false} SplitJoinSpaced(xs: seq<string>)
    requires |xs| >= 1
    requires forall i :: 0 <= i < |xs| ==> ',' !in xs[i]
    ensures var ps := Split(Join(xs, ", "), ',');
            && |ps| == |xs| && ps[0] == xs[0]
            && forall i :: 1 <= i < |xs| ==> ps[i] == " " + xs[i]
  {
    if |xs| > 1 {
      var rest := xs[1..];
      var x := Join(rest, ", ");
      SplitJoinSpaced(rest);
      var qs := Split(x, ',');
      assert Join(xs, ", ") == xs[0] + [','] + (" " + x);
      SplitAfterHead(xs[0], ',', " " + x);
      assert (" " + x)[1..] == x;
      assert Split(" " + x, ',') == [" " + qs[0]] + qs[1..];
      var ps := Split(Join(xs, ", "), ',');
      assert ps == [xs[0]] + ([" " + qs[0]] + qs[1..]);
      forall i | 1 <= i < |xs|
        ensures ps[i] == " " + xs[i]
      {
        if i > 1 {
          assert ps[i] == qs[i - 1] == " " + rest[i - 1];
        }
      }
    }
  }

  /** Each piece of clean entries joined by ", " trims to its entry. */
  lemma SpacedPiecesTrim(entries: seq<string>)
    requires |entries| >= 1
    requires forall i :: 0 <= i < |entries| ==>
               entries[i] != [] && ',' !in entries[i] && Trim(entries[i]) == entries[i]
    ensures var ps := Split(Join(entries, ", "), ',');
            |ps| == |entries| && forall i :: 0 <= i < |ps| ==> Trim(ps[i]) == entries[i]
  {
    SplitJoinSpaced(entries);
    var ps := Split(Join(entries, ", "), ',');
    forall i | 1 <= i < |entries|
      ensures Trim(ps[i]) == entries[i]
    {
      TrimLeadingSpace(entries[i]);
    }
  }

  /** A list of clean entries written out with ", ", as the details dialog
      shows them, reads back as the same list. */
  lemma CommaListSpacedRoundTrip(entries: seq<string>)
    requires forall i :: 0 <= i < |entries| ==>
               entries[i] != [] && ',' !in entries[i] && Trim(entries[i]) == entries[i]
    ensures CommaList(Join(entries, ", ")) == entries
  {
    if entries == [] {
      assert Split([], ',') == [[]];
      assert Blank([]);
    } else {
      SpacedPiecesTrim(entries);
      TrimNonBlankOfPadded(Split(Join(entries, ", "), ','), entries);
    }
  }

  /** A list of clean entries written out with commas reads back as the
      same list. */
  lemma CommaListRoundTrip(entries: seq<string>)
    requires forall i :: 0 <= i < |entries| ==>
               entries[i] != [] && ',' !in entries[i] && Trim(entries[i]) == entries[i]
    ensures CommaList(Join(entries, ",")) == entries
  {
    if entries == [] {
      assert Split([], ',') == [[]];
      assert Blank([]);
    } else {
      SplitJoin(entries, ',');
      TrimNonBlankKeepsClean(entries);
    }
  }

  /** `a.slice().reverse()`. */
  function Reverse<T>(s: seq<T>): (r: seq<T>)
    ensures |r| == |s|
    ensures forall i :: 0 <= i < |s| ==> r[i] == s[|s| - 1 - i]
  {
    if s == [] then [] else Reverse(s[1..]) + [s[0]]
  }

  lemma ReverseInvolutive<T>(s: seq<T>)
    ensures Reverse(Reverse(s)) == s
  {
  }

  function DigitChar(d: nat): char
    requires d < 10
  {
    "0123456789"[d]
  }

  /** The value of a string of decimal digits, read left to right. */
  function DigitsValue(s: string): nat
    requires forall i :: 0 <= i < |s| ==> '0' <= s[i] <= '9'
  {
    if s == [] then 0
    else DigitsValue(s[..|s| - 1]) * 10 + (s[|s| - 1] as int - '0' as int)
  }

  /** `String(n)` for a non-negative integer. */
  function NatToString(n: nat): (r: string)
    ensures |r| >= 1 && (r[0] == '0' ==> n == 0)
    ensures forall i :: 0 <= i < |r| ==> '0' <= r[i] <= '9'
    ensures DigitsValue(r) == n
  {
    if n < 10 then [DigitChar(n)]
    else
      var r := NatToString(n / 10) + [DigitChar(n % 10)];
      assert r[..|r| - 1] == NatToString(n / 10);
      r
  }

  /** `String(n)` for an integer. */
  function IntToString(n: int): (r: string)
    ensures r != []
    ensures n < 0 <==> r[0] == '-'
  {
    if n < 0 then "-" + NatToString(-n) else NatToString(n)
  }
}

=== FILE: legacy_chat_window.dfy ===
/** The first chat window (src/components/ChatWindow.jsx): a contact list,
    a sender/receiver-pair filter on inbound messages, an enable rule that
    depends on the role, and a send that waits for the server's echo
    instead of showing the message optimistically. */
module LegacyChatWindow {
  import opened Js
  import opened Tickets
  import ChatModel

  /** A contact: the chat users listed in the sidebar. */
  datatype User = User(id: Maybe<string>, fullName: Maybe<string>, role: Maybe<string>)

  /** A message of this revision: plain sender and receiver ids. */
  datatype Message = Message(
    senderId: Maybe<string>,
    receiverId: Maybe<string>,
    text: Maybe<string>,
    fileUrl: Maybe<string>,
    fileType: Maybe<string>,
    timestamp: Maybe<string>)

  /** The component state: socket presence, `selectedUser`, `messages`,
      `isChatDisabled`, `newMessage`, `selectedFile` and `filePreview`. */
  datatype State = State(
    hasSocket: bool,
    selected: Option<User>,
    messages: seq<Message>,
    disabled: bool,
    compose: string,
    file: Option<ChatModel.File>,
    preview: Option<string>)

  /** The `receiveMessage` handler of the current user `me`. With a
      selected contact, only the messages between that contact and me are
      appended; with none, only the messages I sent. */
  function Receive(st: State, me: string, m: Message): (r: State)
    ensures r == st.(messages := r.messages)
    ensures r.messages == st.messages || r.messages == st.messages + [m]
    ensures st.selected.Some? ==>
              (r.messages == st.messages + [m] <==>
                 || (m.senderId == st.selected.value.id && m.receiverId == Has(me))
                 || (m.senderId == Has(me) && m.receiverId == st.selected.value.id))
    ensures st.selected.None? ==> (r.messages == st.messages + [m] <==> m.senderId == Has(me))
  {
    var accept :=
      match st.selected
      case Some(u) =>
        (m.senderId == u.id && m.receiverId == Has(me)) || (m.senderId == Has(me) && m.receiverId == u.id)
      case None => m.senderId == Has(me);
    if accept then st.(messages := st.messages + [m]) else st
  }

  /** Whether the chat is enabled. An engineer may chat only about a ticket
      assigned to them that is not closed; every other role may chat as
      soon as a contact is selected. */
  predicate ChatEnabled(role: string, ticket: Option<Ticket>, me: string, selected: Option<User>) {
    if role == "Engineer" then
      && ticket.Some?
      && ticket.value.assignedEngineer.Has?
      && ticket.value.assignedEngineer.value.engineerId == Has(me)
      && ticket.value.status != "Closed"
    else selected.Some?
  }

  /** The enable effect: sets `isChatDisabled` and, for an engineer who may
      chat, asks for the contact list. */
  datatype EnableEffect = EnableEffect(state: State, fetchUsers: bool)

  function OnContext(st: State, role: string, ticket: Option<Ticket>, me: string): (e: EnableEffect)
    ensures e.state == st.(disabled := e.state.disabled)
    ensures role == "Engineer" ==>
              (!e.state.disabled <==>
                 ticket.Some? && ticket.value.assignedEngineer.Has?
                 && ticket.value.assignedEngineer.value.engineerId == Has(me)
                 && ticket.value.status != "Closed")
    ensures role != "Engineer" ==> (e.state.disabled <==> st.selected.None?)
    ensures e.fetchUsers <==> role == "Engineer" && !e.state.disabled
  {
    var enabled := ChatEnabled(role, ticket, me, st.selected);
    EnableEffect(st.(disabled := !enabled), role == "Engineer" && enabled)
  }

  /** For an engineer the selection plays no part; for other roles the
      ticket plays no part. */
  lemma EnableDependsOnRoleOnly(role: string, t1: Option<Ticket>, t2: Option<Ticket>, me: string,
                                s1: Option<User>, s2: Option<User>)
    ensures role == "Engineer" ==> ChatEnabled(role, t1, me, s1) == ChatEnabled(role, t1, me, s2)
    ensures role != "Engineer" && s1.Some? == s2.Some? ==>
              ChatEnabled(role, t1, me, s1) == ChatEnabled(role, t2, me, s2)
  {
  }

  /** A closed ticket silences its engineer whoever it is assigned to. */
  lemma ClosedTicketDisablesEngineer(t: Ticket, me: string, selected: Option<User>)
    requires t.status == "Closed"
    ensures !ChatEnabled("Engineer", Some(t), me, selected)
  {
  }

  /** The `fetchMessages` payload. */
  datatype HistoryRequest = HistoryRequest(
    senderId: string,
    receiverId: Maybe<string>,
    ticketId: Maybe<string>,
    limitDate: Maybe<string>)

  /** The history fetch, issued only with a socket and a selected contact;
      an engineer's request is limited to messages after `cutoff` (fifteen
      days before the clock reading, computed outside the model), any other
      role's carries `null`. */
  function FetchHistory(st: State, me: string, role: string, ticket: Option<Ticket>,
                        cutoff: string): (r: Option<HistoryRequest>)
    ensures r.Some? <==> st.hasSocket && st.selected.Some?
    ensures r.Some? ==>
              && r.value.senderId == me
              && r.value.receiverId == st.selected.value.id
              && (r.value.limitDate.Has? <==> role == "Engineer")
              && (role == "Engineer" ==> r.value.limitDate == Has(cutoff))
              && (role != "Engineer" ==> r.value.limitDate == Null)
              && (ticket.None? ==> r.value.ticketId == Undefined)
              && (ticket.Some? ==> r.value.ticketId == ticket.value.id)
  {
    if st.hasSocket && st.selected.Some? then
      Some(HistoryRequest(me, st.selected.value.id,
                          if ticket.Some? then ticket.value.id else Undefined,
                          if role == "Engineer" then Has(cutoff) else Null))
    else None
  }

  /** The fetched history and the live filter cover the same
      conversation: every message between me and the contact the request
      names, in either direction, is accepted when it arrives live. */
  lemma FetchedPairMatchesLiveFilter(st: State, me: string, role: string, ticket: Option<Ticket>,
                                     cutoff: string, m: Message)
    requires FetchHistory(st, me, role, ticket, cutoff).Some?
    requires var q := FetchHistory(st, me, role, ticket, cutoff).value;
             || (m.senderId == Has(q.senderId) && m.receiverId == q.receiverId)
             || (m.senderId == q.receiverId && m.receiverId == Has(q.senderId))
    ensures Receive(st, me, m).messages == st.messages + [m]
  {
  }

  /** The history reply replaces the list. */
  function OnHistory(st: State, history: seq<Message>): (r: State)
    ensures r == st.(messages := history)
  {
    st.(messages := history)
  }

  /** The attachment types this revision accepts; it also admits the
      non-standard `image/jpg`. */
  const AllowedTypes: seq<string> := ["image/jpeg", "image/png", "image/gif", "application/pdf", "image/jpg"]

  /** A preview is shown only while a file is selected. */
  predicate PreviewHasFile(st: State) {
    st.preview.Some? ==> st.file.Some?
  }

  /** `handleFileSelect`: no file changes nothing; a rejected type clears
      both the selection and the preview; an accepted file becomes the
      selection. A PDF clears the preview at once, while an image leaves it
      as it was: its preview arrives later, when the reader has the data
      URL (`OnPreviewRead`). */
  function SelectFile(st: State, picked: Option<ChatModel.File>): (r: State)
    ensures picked.None? ==> r == st
    ensures picked.Some? && picked.value.mimeType !in AllowedTypes ==> r == st.(file := None, preview := None)
    ensures picked.Some? && picked.value.mimeType in AllowedTypes ==>
              && r == st.(file := picked, preview := r.preview)
              && (picked.value.mimeType == "application/pdf" ==> r.preview == None)
              && (picked.value.mimeType != "application/pdf" ==> r.preview == st.preview)
  {
    match picked
    case None => st
    case Some(f) =>
      if f.mimeType !in AllowedTypes then st.(file := None, preview := None)
      else if StartsWith(f.mimeType, "image") then
        assert "application/pdf"[0] != "image"[0];
        st.(file := picked)
      else st.(file := picked, preview := None)
  }

  /** The image reader's `onloadend`: the data URL becomes the preview,
      whatever has happened to the selection since the read began. */
  function OnPreviewRead(st: State, dataUrl: string): (r: State)
    ensures r.preview == Some(dataUrl)
    ensures r.(preview := st.preview) == st
  {
    st.(preview := Some(dataUrl))
  }

  /** The reader's result arriving after the selection was cleared still
      becomes the preview. The X button shows only while a preview does, so
      the run starts with an earlier image's preview on screen: pick a new
      image, press X before its read completes, and the late result shows a
      preview with no file behind it. */
  lemma StalePreviewOutlivesFile(st: State, image: ChatModel.File, dataUrl: string)
    requires st.preview.Some?
    requires image.mimeType == "image/png"
    ensures var late := OnPreviewRead(ClearAttachment(SelectFile(st, Some(image))), dataUrl);
            late.preview == Some(dataUrl) && late.file.None? && !PreviewHasFile(late)
  {
    assert StartsWith(image.mimeType, "image");
  }

  /** The reader's completion as evidently intended: the data URL becomes
      the preview only while the file that was read is still selected. */
  function OnPreviewReadGuarded(st: State, read: ChatModel.File, dataUrl: string): (r: State)
    ensures st.file == Some(read) ==> r == st.(preview := Some(dataUrl))
    ensures st.file != Some(read) ==> r == st
  {
    if st.file == Some(read) then st.(preview := Some(dataUrl)) else st
  }

  /** The preview's close button: both the file and its preview go. */
  function ClearAttachment(st: State): (r: State)
    ensures r == st.(file := None, preview := None)
    ensures PreviewHasFile(r)
  {
    st.(file := None, preview := None)
  }

  /** The payload of a `sendMessage` emit of this revision. */
  datatype Outgoing = Outgoing(
    senderId: string,
    senderName: Maybe<string>,
    senderRole: string,
    receiverId: Maybe<string>,
    receiverName: Maybe<string>,
    receiverRole: Maybe<string>,
    text: string,
    ticketId: Maybe<string>,
    fileData: Maybe<string>,
    fileType: Maybe<string>)

  datatype Effect = Effect(state: State, sent: seq<Outgoing>)

  /** `reader.result.split(',')[1]`: the text between the first and the
      second comma of the data URL (up to its end when there is no second
      comma), `undefined` when there is no comma at all. */
  function DataUrlPayload(dataUrl: string): (r: Maybe<string>)
    ensures ',' !in dataUrl <==> r == Undefined
    ensures r.Has? ==> ',' !in r.value
  {
    var parts := Split(dataUrl, ',');
    if ',' in dataUrl then SplitAtSeparator(dataUrl, ','); Has(parts[1]) else Undefined
  }

  /** For a data URL `header,payload` (and whatever follows a second
      comma) the payload is the piece after the header. */
  lemma DataUrlPayloadOf(header: string, payload: string, tail: Maybe<string>)
    requires ',' !in header && ',' !in payload
    ensures tail.Has? ==> DataUrlPayload(header + "," + payload + "," + tail.value) == Has(payload)
    ensures DataUrlPayload(header + "," + payload) == Has(payload)
  {
    SplitAfterHead(header, ',', payload);
    assert header + "," + payload == header + [','] + payload;
    if tail.Has? {
      var t := tail.value;
      SplitAfterHead(payload, ',', t);
      SplitAfterHead(header, ',', payload + "," + t);
      assert header + "," + payload + "," + t == header + [','] + (payload + [','] + t);
    }
  }

  /** `sendMessage()`: with a socket, a contact, an enabled chat and text or
      a file, one message is emitted. A file send (after the reader has the
      data URL) clears text, file and preview; a text send clears only the
      text. The list itself is never touched: the message shows up when the
      server echoes it. */
  function Send(st: State, me: string, myName: Maybe<string>, myRole: string,
                ticket: Option<Ticket>, dataUrl: string): (e: Effect)
    ensures e.state.messages == st.messages
    ensures !(st.hasSocket && st.selected.Some? && !st.disabled && (!Blank(st.compose) || st.file.Some?)) ==>
              e == Effect(st, [])
    ensures st.hasSocket && st.selected.Some? && !st.disabled && (!Blank(st.compose) || st.file.Some?) ==>
              && |e.sent| == 1
              && e.sent[0].senderId == me
              && e.sent[0].receiverId == st.selected.value.id
              && e.sent[0].text == Trim(st.compose)
              && (st.file.Some? ==>
                    && e.state == st.(compose := [], file := None, preview := None)
                    && e.sent[0].fileType == Has(st.file.value.mimeType)
                    && e.sent[0].fileData == DataUrlPayload(dataUrl))
              && (st.file.None? ==>
                    && e.state == st.(compose := [])
                    && e.sent[0].fileData == Undefined && e.sent[0].fileType == Undefined)
  {
    if !(st.hasSocket && st.selected.Some? && !st.disabled && (!Blank(st.compose) || st.file.Some?)) then
      Effect(st, [])
    else
      var u := st.selected.value;
      var ticketId := if ticket.Some? then ticket.value.id else Undefined;
      match st.file
      case Some(f) =>
        Effect(st.(compose := [], file := None, preview := None),
               [Outgoing(me, myName, myRole, u.id, u.fullName, u.role, Trim(st.compose), ticketId,
                         DataUrlPayload(dataUrl), Has(f.mimeType))])
      case None =>
        Effect(st.(compose := []),
               [Outgoing(me, myName, myRole, u.id, u.fullName, u.role, Trim(st.compose), ticketId,
                         Undefined, Undefined)])
  }

  /** With the guarded reader, selecting, clearing, sending and the
      reader's completion keep every preview tied to a file, so the
      text-only send, which clears only the text, leaves no preview
      behind. */
  lemma PreviewHasFileInvariant(st: State, picked: Option<ChatModel.File>, read: ChatModel.File,
                                dataUrl: string, me: string, myName: Maybe<string>, myRole: string,
                                ticket: Option<Ticket>)
    requires PreviewHasFile(st)
    ensures PreviewHasFile(SelectFile(st, picked))
    ensures PreviewHasFile(ClearAttachment(st))
    ensures PreviewHasFile(OnPreviewReadGuarded(st, read, dataUrl))
    ensures PreviewHasFile(Send(st, me, myName, myRole, ticket, dataUrl).state)
    ensures st.file.None? ==> Send(st, me, myName, myRole, ticket, dataUrl).state.preview.None?
  {
  }

  /** The server's echo of a message just sent passes the receive filter
      and is appended, so a send shows up exactly once, at the end. */
  lemma EchoOfSendIsAppended(st: State, me: string, myName: Maybe<string>, myRole: string,
                             ticket: Option<Ticket>, dataUrl: string, echo: Message)
    requires st.hasSocket && st.selected.Some? && !st.disabled && (!Blank(st.compose) || st.file.Some?)
    requires echo.senderId == Has(me)
    requires echo.receiverId == Send(st, me, myName, myRole, ticket, dataUrl).sent[0].receiverId
    ensures var after := Send(st, me, myName, myRole, ticket, dataUrl).state;
            Receive(after, me, echo).messages == st.messages + [echo]
  {
  }

  /** The Enter key: sends only with text or a file while enabled. */
  function KeyPress(st: State, key: string, me: string, myName: Maybe<string>, myRole: string,
                    ticket: Option<Ticket>, dataUrl: string): (e: Effect)
    ensures key != "Enter" ==> e == Effect(st, [])
    ensures key == "Enter" && st.disabled ==> e == Effect(st, [])
  {
    if key == "Enter" && (!Blank(st.compose) || st.file.Some?) && !st.disabled then
      Send(st, me, myName, myRole, ticket, dataUrl)
    else Effect(st, [])
  }

  /** The Enter key's own guard adds nothing to `sendMessage`'s: pressing
      Enter is the same as clicking send. */
  lemma EnterIsSend(st: State, me: string, myName: Maybe<string>, myRole: string,
                    ticket: Option<Ticket>, dataUrl: string)
    ensures KeyPress(st, "Enter", me, myName, myRole, ticket, dataUrl)
            == Send(st, me, myName, myRole, ticket, dataUrl)
  {
  }

  /** The header: "Chat with <name>" for a selected contact. */
  function Title(st: State): (r: string)
    ensures st.selected.None? ==> r == "Select a user to chat"
    ensures st.selected.Some? ==> r == "Chat with " + Str(st.selected.value.fullName)
  {
    match st.selected
    case None => "Select a user to chat"
    case Some(u) => "Chat with " + Str(u.fullName)
  }
}

=== FILE: login.dfy ===
/** The login screen's submit handler (src/Login.jsx): the checks on the
    server's reply, the role gate and the hand-over of the token. The HTTP
    call is collapsed into its reply. */
module Login {
  import opened Js
  import App

  /** The `user` object of the reply, with the fields the handler reads. */
  datatype User = User(id: Maybe<string>, fullName: Maybe<string>, role: Maybe<string>, companyId: Maybe<string>)

  /** The outcome of the request: rejected (a network or HTTP error), or the
      reply's `token` and `user`. */
  datatype Response = RequestFailed | Received(token: Maybe<string>, user: Maybe<User>)

  /** The roles allowed into the admin panel. */
  const AllowedRoles: seq<string> := ["Admin", "Company Admin", "NetCovet Manager"]

  /** The arguments of `onLogin`. */
  datatype LoginCall = LoginCall(token: string, role: string, companyId: Maybe<string>)

  /** What one submit leaves behind: the loading flag, the `onLogin` call
      if it was made, and the navigation if any. */
  datatype Attempt = Attempt(loading: bool, call: Option<LoginCall>, navigateTo: Option<string>)

  /** A reply that passes both checks. */
  predicate Accepted(resp: Response) {
    && resp.Received? && Truthy(resp.token)
    && resp.user.Has? && Truthy(resp.user.value.role)
    && resp.user.value.role.value in AllowedRoles
  }

  /** `handleSubmit`. */
  function HandleSubmit(resp: Response): (a: Attempt)
    ensures !a.loading
    ensures a.call.Some? <==> Accepted(resp)
    ensures a.call.Some? ==>
              a.call.value == LoginCall(resp.token.value, resp.user.value.role.value, resp.user.value.companyId)
    ensures a.navigateTo.Some? <==> a.call.Some?
    ensures a.navigateTo.Some? ==> a.navigateTo.value == "/admin"
  {
    match resp
    case RequestFailed => Attempt(false, None, None)
    case Received(token, user) =>
      if !Truthy(token) || !user.Has? || !Truthy(user.value.role) then Attempt(false, None, None)
      else if user.value.role.value !in AllowedRoles then Attempt(false, None, None)
      else Attempt(false, Some(LoginCall(token.value, user.value.role.value, user.value.companyId)), Some("/admin"))
  }

  /** An engineer, or a user with no role at all, is refused even with a
      valid token. */
  lemma EngineerIsRefused(token: string, u: User)
    requires u.role == Has("Engineer") || !Truthy(u.role)
    ensures HandleSubmit(Received(Has(token), Has(u))).call.None?
  {
    assert "Engineer"[0] !in {"Admin"[0], "Company Admin"[0], "NetCovet Manager"[0]};
  }

  /** A reply without a token is refused whatever the user. */
  lemma MissingTokenIsRefused(token: Maybe<string>, user: Maybe<User>)
    requires !Truthy(token)
    ensures HandleSubmit(Received(token, user)).call.None?
  {
  }

  /** An accepted login hands the shell a token that opens the dashboard
      it navigates to. */
  lemma AcceptedLoginOpensDashboard(s: App.Session, resp: Response)
    requires Accepted(resp)
    ensures var a := HandleSubmit(resp);
            App.Resolve(a.navigateTo.value, App.HandleLogin(s, a.call.value.token).token)
              == App.Dashboard(resp.token.value)
  {
  }
}

=== FILE: message_bubble.dfy ===
/** One message of the optimistic chat (src/components/chat/MessageBubble.jsx):
    which blocks it shows, the reply preview, the sender label and the
    faded look of an entry the server has not confirmed yet. */
module MessageBubble {
  import opened Js
  import opened ChatModel

  /** `!!msg.fileKey`. */
  predicate HasFile(m: Message) {
    Truthy(m.fileKey)
  }

  /** `!!msg.text`. */
  predicate HasText(m: Message) {
    Truthy(m.text)
  }

  /** `!!msg.replyTo?._id`. */
  predicate HasReply(m: Message) {
    m.replyTo.Has? && Truthy(m.replyTo.value.id)
  }

  /** A field of a populated sender, `undefined` when the sender is
      missing (`msg.senderId?.fullName`). */
  function SenderField(s: Maybe<Sender>, fullName: bool): (r: Maybe<string>)
    ensures !s.Has? ==> r == Undefined
    ensures s.Has? && fullName ==> r == s.value.fullName
    ensures s.Has? && !fullName ==> r == s.value.role
  {
    match s
    case Has(x) => if fullName then x.fullName else x.role
    case _ => Undefined
  }

  /** The label over a bubble: "You" for my own messages, otherwise
      `fullName (role)` as a template literal renders it. */
  function SenderLabel(m: Message, isSender: bool): (r: string)
    ensures isSender ==> r == "You"
    ensures !isSender ==>
              r == Str(SenderField(m.sender, true)) + " (" + Str(SenderField(m.sender, false)) + ")"
  {
    if isSender then "You"
    else Str(SenderField(m.sender, true)) + " (" + Str(SenderField(m.sender, false)) + ")"
  }

  /** A message without a populated sender is labelled with the literal
      text "undefined (undefined)". */
  lemma MissingSenderLabel(m: Message)
    requires !m.sender.Has?
    ensures SenderLabel(m, false) == "undefined (undefined)"
  {
  }

  /** The quoted message above a reply. */
  datatype ReplyPreview = ReplyPreview(sender: string, content: string)

  /** `ReplyContent`: the replied-to sender (or "User"); the replied text
      if any, otherwise "Image" or "File" for an attachment, otherwise
      "No content". */
  function ReplyContent(m: Message): (r: Option<ReplyPreview>)
    ensures r.Some? <==> HasReply(m)
    ensures r.Some? ==>
              var q := m.replyTo.value;
              && r.value.sender == (if Truthy(SenderField(q.sender, true)) then SenderField(q.sender, true).value else "User")
              && (Truthy(q.text) ==> r.value.content == q.text.value)
              && (!Truthy(q.text) && Truthy(q.fileKey) ==>
                    r.value.content == (if q.fileType.Has? && StartsWith(q.fileType.value, "image/") then "Image" else "File"))
              && (!Truthy(q.text) && !Truthy(q.fileKey) ==> r.value.content == "No content")
  {
    if !HasReply(m) then None
    else
      var q := m.replyTo.value;
      var name := SenderField(q.sender, true);
      var content :=
        if Truthy(q.text) then q.text.value
        else if Truthy(q.fileKey) then (if q.fileType.Has? && StartsWith(q.fileType.value, "image/") then "Image" else "File")
        else "";
      Some(ReplyPreview(if Truthy(name) then name.value else "User", if content == "" then "No content" else content))
  }

  /** A reply preview never shows an empty sender or an empty line. */
  lemma ReplyPreviewNeverBlank(m: Message)
    requires HasReply(m)
    ensures ReplyContent(m).value.sender != "" && ReplyContent(m).value.content != ""
  {
  }

  /** What a bubble shows. Opacity is in percent. */
  datatype Bubble = Bubble(
    caption: Option<string>,
    reply: Option<ReplyPreview>,
    showsFile: bool,
    showsText: bool,
    opacityPercent: nat)

  /** A bubble: the sender label only on others' messages, the file block
      iff there is a file key, the text block iff there is text, and 60%
      opacity while the entry is optimistic. */
  function BubbleOf(m: Message, isSender: bool): (b: Bubble)
    ensures b.caption.Some? <==> !isSender
    ensures b.caption.Some? ==> b.caption.value == SenderLabel(m, false)
    ensures b.reply == ReplyContent(m)
    ensures b.showsFile <==> HasFile(m)
    ensures b.showsText <==> HasText(m)
    ensures b.opacityPercent == (if m.isOptimistic then 60 else 100)
  {
    Bubble(if isSender then None else Some(SenderLabel(m, false)),
           ReplyContent(m), HasFile(m), HasText(m), if m.isOptimistic then 60 else 100)
  }

  /** The entry appended by a send is faded, shows a file block iff a file
      was attached, and a text block iff the trimmed text is not empty. */
  lemma OptimisticEntryBubble(tempId: string, userId: string, userRole: Maybe<string>, text: string,
                              file: Option<File>, blobUrl: string, now: string, conversationId: Maybe<string>)
    requires blobUrl != ""
    ensures var b := BubbleOf(Optimistic(tempId, userId, userRole, text, file, blobUrl, now, conversationId), true);
            && b.opacityPercent == 60
            && (b.showsFile <==> file.Some?)
            && (b.showsText <==> text != "")
            && b.caption.None? && b.reply.None?
  {
  }
}

=== FILE: polished_ticket_card.dfy ===
/** The ticket card of the ticket grid (src/components/PolishedTicketCard.jsx):
    status badge, colour strip, expertise chips, last-update date source and
    the status menu. */
module PolishedTicketCard {
  import opened Js
  import opened Tickets
  import TicketDetailsModal

  /** `assignedEngineer?.assignmentStatus === 'pending'`. */
  predicate AssignmentPending(t: Ticket) {
    t.assignedEngineer.Has? && t.assignedEngineer.value.assignmentStatus == Has("pending")
  }

  /** The badge: "Pending" in the primary style while an assignment waits,
      otherwise the ticket status in the secondary style. */
  datatype Badge = Badge(caption: string, primary: bool)

  function BadgeOf(t: Ticket): (b: Badge)
    ensures b.primary <==> AssignmentPending(t)
    ensures b.primary ==> b.caption == "Pending"
    ensures !b.primary ==> b.caption == t.status
  {
    if AssignmentPending(t) then Badge("Pending", true) else Badge(t.status, false)
  }

  /** A ticket without an engineer always shows its status. */
  lemma UnassignedTicketShowsStatus(t: Ticket)
    requires !t.assignedEngineer.Has?
    ensures BadgeOf(t) == Badge(t.status, false)
  {
  }

  /** The colour of the strip: one per known status, grey otherwise. */
  function StatusColor(status: string): (c: string)
    ensures status == "Open" ==> c == "bg-blue-500"
    ensures status == "In Progress" ==> c == "bg-yellow-500"
    ensures status == "Closed" ==> c == "bg-gray-500"
    ensures status !in Statuses ==> c == "bg-gray-400"
  {
    if status == "Open" then "bg-blue-500"
    else if status == "In Progress" then "bg-yellow-500"
    else if status == "Closed" then "bg-gray-500"
    else "bg-gray-400"
  }

  /** The known statuses have pairwise distinct colours, and none of them
      shares the fallback colour. */
  lemma StatusColorsDistinct(a: string, b: string)
    requires a in Statuses && b in Statuses && a != b
    ensures StatusColor(a) != StatusColor(b)
    ensures StatusColor(a) != "bg-gray-400"
  {
  }

  /** The chips row: the first three entries and an ellipsis chip for the
      rest. */
  datatype Chips = Chips(shown: seq<string>, ellipsis: bool)

  function ChipsOf(expertise: seq<string>): (c: Chips)
    ensures |c.shown| <= 3
    ensures |c.shown| == if |expertise| < 3 then |expertise| else 3
    ensures c.shown == expertise[..|c.shown|]
    ensures c.ellipsis <==> |expertise| > 3
  {
    Chips(if |expertise| <= 3 then expertise else expertise[..3], |expertise| > 3)
  }

  /** Nothing is lost silently: either every entry is shown or the ellipsis
      says that some are hidden. */
  lemma ChipsHideOnlyWithEllipsis(expertise: seq<string>)
    ensures ChipsOf(expertise).shown == expertise || ChipsOf(expertise).ellipsis
  {
  }

  /** `lastInteraction?.timestamp || ticket.createdAt`: the last logged
      interaction's timestamp when it is truthy, the creation date
      otherwise. The card indexes the log unconditionally, so the log must
      exist. */
  function LastUpdateSource(t: Ticket): (r: Maybe<string>)
    requires t.interactions.Has?
    ensures var log := t.interactions.value;
            && (log != [] && Truthy(log[|log| - 1].timestamp) ==> r == log[|log| - 1].timestamp)
            && (log == [] || !Truthy(log[|log| - 1].timestamp) ==> r == t.createdAt)
  {
    var log := t.interactions.value;
    if log != [] && Truthy(log[|log| - 1].timestamp) then log[|log| - 1].timestamp else t.createdAt
  }

  /** One entry of the status menu, and the change it requests. */
  datatype MenuItem = MenuItem(status: string, disabled: bool, ticketId: Maybe<string>)

  function StatusMenu(t: Ticket): (r: seq<MenuItem>)
    ensures |r| == |Statuses|
    ensures forall i :: 0 <= i < |r| ==>
              && r[i].status == Statuses[i]
              && r[i].ticketId == t.id
              && (r[i].disabled <==> Statuses[i] == t.status)
  {
    seq(|Statuses|, i requires 0 <= i < |Statuses| =>
          MenuItem(Statuses[i], Statuses[i] == t.status, t.id))
  }

  /** At most one item is disabled, and one is exactly when the current
      status is one of the three. */
  lemma StatusMenuDisablesCurrentOnly(t: Ticket)
    ensures forall i, j :: 0 <= i < j < 3 ==> !(StatusMenu(t)[i].disabled && StatusMenu(t)[j].disabled)
    ensures (exists i :: 0 <= i < 3 && StatusMenu(t)[i].disabled) <==> t.status in Statuses
  {
    var m := StatusMenu(t);
    assert Statuses[0] != Statuses[1] && Statuses[0] != Statuses[2] && Statuses[1] != Statuses[2];
    if t.status in Statuses {
      var k :| 0 <= k < 3 && Statuses[k] == t.status;
      assert m[k].disabled;
    }
  }

  /** The card dates a ticket by the entry the details dialog lists first. */
  lemma CardDateIsNewestLogEntry(t: Ticket)
    requires t.interactions.Has? && t.interactions.value != []
    requires Truthy(t.interactions.value[|t.interactions.value| - 1].timestamp)
    ensures LastUpdateSource(t) == TicketDetailsModal.InteractionLog(t)[0].timestamp
  {
  }
}

=== FILE: ticket_creation_form.dfy ===
/** The single-ticket form (src/components/TicketCreationForm.jsx): its
    fields, the expertise toggle, the address picker and the submit
    validation. Amounts and coordinates are floats in the source; only the
    distinctions the validation makes are kept (an amount is its input
    text, a coordinate is an integer or missing). */
module TicketCreationForm {
  import opened Js

  /** `formData`. A number input yields its text, "" when cleared; the
      engineers field is that number, `None` when cleared. */
  datatype Form = Form(
    companyName: string,
    siteAddress: string,
    workDescription: string,
    amount: string,
    expertise: seq<string>,
    requiredEngineers: Option<int>)

  /** `coordinates`, `null` until an address is picked. */
  datatype Coordinates = Coordinates(latitude: Option<int>, longitude: Option<int>)

  function InitialForm(): (f: Form)
    ensures f.expertise == [] && f.requiredEngineers == Some(1)
    ensures f.companyName == "" && f.siteAddress == "" && f.workDescription == "" && f.amount == ""
  {
    Form("", "", "", "", [], Some(1))
  }

  function InitialCoordinates(): (c: Coordinates)
    ensures c.latitude.None? && c.longitude.None?
  {
    Coordinates(None, None)
  }

  /** The inputs wired to `handleChange`, by their `name`. */
  datatype Edit =
    | CompanyName(text: string)
    | SiteAddress(text: string)
    | WorkDescription(text: string)
    | Amount(text: string)
    | RequiredEngineers(count: Option<int>)

  /** `handleChange`: the named field takes the new value, the others stay. */
  function HandleChange(f: Form, e: Edit): (r: Form)
    ensures r.expertise == f.expertise
    ensures r.companyName == (if e.CompanyName? then e.text else f.companyName)
    ensures r.siteAddress == (if e.SiteAddress? then e.text else f.siteAddress)
    ensures r.workDescription == (if e.WorkDescription? then e.text else f.workDescription)
    ensures r.amount == (if e.Amount? then e.text else f.amount)
    ensures r.requiredEngineers == (if e.RequiredEngineers? then e.count else f.requiredEngineers)
  {
    match e
    case CompanyName(t) => f.(companyName := t)
    case SiteAddress(t) => f.(siteAddress := t)
    case WorkDescription(t) => f.(workDescription := t)
    case Amount(t) => f.(amount := t)
    case RequiredEngineers(n) => f.(requiredEngineers := n)
  }

  /** `list.filter(x => x !== v)`. */
  function RemoveAll(list: seq<string>, v: string): (r: seq<string>)
    ensures |r| <= |list|
    ensures v !in r
    ensures forall x :: x != v ==> (x in r <==> x in list)
    ensures v !in list ==> r == list
  {
    if list == [] then []
    else (if list[0] == v then [] else [list[0]]) + RemoveAll(list[1..], v)
  }

  /** Filtering distributes over concatenation: the entries that stay keep
      their order. */
  lemma {:induction false} RemoveAllAppend(a: seq<string>, b: seq<string>, v: string)
    ensures RemoveAll(a + b, v) == RemoveAll(a, v) + RemoveAll(b, v)
  {
    if a == [] {
      assert a + b == b;
    } else {
      assert (a + b)[1..] == a[1..] + b;
      RemoveAllAppend(a[1..], b, v);
    }
  }

  /** `handleExpertiseChange`: a present value is removed everywhere, an
      absent one appended. */
  function Toggle(list: seq<string>, v: string): (r: seq<string>)
    ensures v in r <==> v !in list
    ensures forall x :: x != v ==> (x in r <==> x in list)
    ensures v !in list ==> r == list + [v]
  {
    if v in list then RemoveAll(list, v) else list + [v]
  }

  /** Checking and unchecking a box restores the list. */
  lemma ToggleTwiceRestores(list: seq<string>, v: string)
    requires v !in list
    ensures Toggle(Toggle(list, v), v) == list
  {
    RemoveAllAppend(list, [v], v);
  }

  function ToggleExpertise(f: Form, v: string): (r: Form)
    ensures r == f.(expertise := Toggle(f.expertise, v))
  {
    f.(expertise := Toggle(f.expertise, v))
  }

  /** `handlePlaceSelect`: the address and both coordinates come from the
      same place. */
  function PlaceSelect(f: Form, address: string, latitude: Option<int>, longitude: Option<int>): (r: (Form, Coordinates))
    ensures r.0 == f.(siteAddress := address)
    ensures r.1 == Coordinates(latitude, longitude)
  {
    (f.(siteAddress := address), Coordinates(latitude, longitude))
  }

  /** `!coordinates.latitude`: missing, or zero. */
  predicate LatitudeMissing(c: Coordinates) {
    c.latitude.None? || c.latitude.value == 0
  }

  /** The ticket handed to `onSubmit`: the form spread as entered (not
      trimmed), the coordinates, and the company when attached. */
  datatype NewTicket = NewTicket(
    companyName: string,
    siteAddress: string,
    workDescription: string,
    amount: string,
    expertise: seq<string>,
    coordinates: Coordinates,
    requiredEngineers: int,
    companyId: Maybe<string>)

  /** The outcome of a submit: the `isSubmitting` flag and the ticket, if
      `onSubmit` was called. */
  datatype Submission = Submission(isSubmitting: bool, ticket: Option<NewTicket>)

  /** `handleSubmit`. */
  function Submit(f: Form, c: Coordinates, role: string, companyId: Maybe<string>): (s: Submission)
    ensures !s.isSubmitting
    ensures s.ticket.None? <==>
              || Blank(f.companyName) || Blank(f.siteAddress) || Blank(f.workDescription)
              || f.amount == "" || LatitudeMissing(c) || f.expertise == []
              || f.requiredEngineers.None? || f.requiredEngineers.value < 1
    ensures s.ticket.Some? ==>
              && s.ticket.value.companyName == f.companyName
              && s.ticket.value.siteAddress == f.siteAddress
              && s.ticket.value.workDescription == f.workDescription
              && s.ticket.value.amount == f.amount
              && s.ticket.value.expertise == f.expertise
              && s.ticket.value.coordinates == c
              && s.ticket.value.requiredEngineers == f.requiredEngineers.value >= 1
              && (s.ticket.value.companyId.Has? <==> role == "Company Admin" && Truthy(companyId))
              && (s.ticket.value.companyId.Has? ==> s.ticket.value.companyId == companyId)
  {
    if || Blank(f.companyName) || Blank(f.siteAddress) || Blank(f.workDescription)
       || f.amount == "" || LatitudeMissing(c) || f.expertise == []
       || f.requiredEngineers.None? || f.requiredEngineers.value < 1
    then Submission(false, None)
    else
      var company := if role == "Company Admin" && Truthy(companyId) then companyId else Undefined;
      Submission(false, Some(NewTicket(f.companyName, f.siteAddress, f.workDescription, f.amount,
                                       f.expertise, c, f.requiredEngineers.value, company)))
  }

  /** The untouched form is never submitted. */
  lemma InitialFormIsRejected(c: Coordinates, role: string, companyId: Maybe<string>)
    ensures Submit(InitialForm(), c, role, companyId).ticket.None?
  {
  }

  /** A site at latitude 0, on the equator, counts as no address at all. */
  lemma ZeroLatitudeIsRejected(f: Form, longitude: Option<int>, role: string, companyId: Maybe<string>)
    ensures Submit(f, Coordinates(Some(0), longitude), role, companyId).ticket.None?
  {
  }

  /** An amount of "0" passes: only an empty amount is refused. */
  lemma ZeroAmountIsAccepted(f: Form, c: Coordinates, role: string, companyId: Maybe<string>)
    requires !Blank(f.companyName) && !Blank(f.siteAddress) && !Blank(f.workDescription)
    requires !LatitudeMissing(c) && f.expertise != []
    requires f.requiredEngineers.Some? && f.requiredEngineers.value >= 1
    ensures Submit(f.(amount := "0"), c, role, companyId).ticket.Some?
  {
  }

  /** Picking an address makes the latitude check depend on the picked
      place only. */
  lemma PlaceSelectDecidesLatitude(f: Form, address: string, latitude: Option<int>, longitude: Option<int>)
    ensures LatitudeMissing(PlaceSelect(f, address, latitude, longitude).1) <==>
              latitude.None? || latitude.value == 0
  {
  }
}

=== FILE: ticket_details_modal.dfy ===
/** The ticket details dialog (src/components/TicketDetailsModal.jsx): which
    values and buttons it shows for a ticket and a role. */
module TicketDetailsModal {
  import opened Js
  import opened Tickets

  /** `canPay`: a closed ticket that is not yet paid. */
  predicate CanPay(t: Ticket) {
    t.status == "Closed" && t.paymentStatus != Has("Paid")
  }

  /** A paid ticket can never be paid again, whatever its status. */
  lemma PaidTicketCannotPay(t: Ticket)
    requires t.paymentStatus == Has("Paid")
    ensures !CanPay(t)
  {
  }

  /** `DetailItem`'s `value || 'N/A'`. */
  function DisplayValue(v: string): (r: string)
    ensures v != "" ==> r == v
    ensures v == "" ==> r == "N/A"
  {
    if v == "" then "N/A" else v
  }

  /** A detail slot that may be missing renders through the same fallback. */
  function DisplaySlot(v: Maybe<string>): (r: string)
    ensures Truthy(v) ==> r == v.value
    ensures !Truthy(v) ==> r == "N/A"
  {
    if Truthy(v) then v.value else "N/A"
  }

  /** The "Expertise" item: the list joined with ", ", or "N/A" when the
      join is empty (no entries, or a single empty entry). */
  function ExpertiseValue(t: Ticket): (r: string)
    ensures Join(t.expertiseRequired, ", ") != "" ==> r == Join(t.expertiseRequired, ", ")
    ensures Join(t.expertiseRequired, ", ") == "" ==> r == "N/A"
    ensures t.expertiseRequired == [] || t.expertiseRequired == [""] ==> r == "N/A"
  {
    DisplayValue(Join(t.expertiseRequired, ", "))
  }

  /** With two or more entries the join holds a separator, so the item
      never falls back to "N/A", even when the entries are empty. */
  lemma SeveralEntriesNeverShowNA(t: Ticket)
    requires |t.expertiseRequired| >= 2
    ensures ExpertiseValue(t) != "N/A"
    ensures ExpertiseValue(t) == Join(t.expertiseRequired, ", ")
  {
    var xs := t.expertiseRequired;
    assert Join(xs, ", ") == xs[0] + ", " + Join(xs[1..], ", ");
    assert Join(xs, ", ")[|xs[0]|] == ',';
  }

  /** The "Amount" item always has a value: the currency sign comes first,
      so even a missing amount renders as text and never as "N/A". */
  function AmountValue(t: Ticket): (r: string)
    ensures r != "N/A" && |r| >= 1 && r[0] == '₹'
    ensures r[1..] == Str(t.amount)
  {
    var v := "₹" + Str(t.amount);
    assert v[0] == '₹' && v[1..] == Str(t.amount);
    DisplayValue(v)
  }

  /** The "Assigned To" item: shown only for a non-empty personnel list,
      and then only for its first entry, as `name (status)`. */
  function AssignedTo(t: Ticket): (r: Option<string>)
    ensures r.Some? <==> t.assignedPersonnel.Has? && |t.assignedPersonnel.value| > 0
    ensures r.Some? ==>
              var p := t.assignedPersonnel.value[0];
              r.value == Str(p.name) + " (" + Str(p.assignmentStatus) + ")"
  {
    match t.assignedPersonnel
    case Has(ps) =>
      if |ps| > 0 then Some(Str(ps[0].name) + " (" + Str(ps[0].assignmentStatus) + ")") else None
    case _ => None
  }

  /** The Assign button of an access request row: it assigns the requesting
      user to this ticket. */
  datatype AssignCall = AssignCall(ticketId: Maybe<string>, userId: Maybe<string>)

  /** One row of the "Access Requests" section. */
  datatype RequestRow = RequestRow(userId: Maybe<string>, caption: string, assign: Option<AssignCall>)

  /** The caption of a request row, `{fullName} ({employeeId})` as JSX
      text: a missing value shows as nothing. */
  function RequestCaption(q: AccessRequest): (r: string)
    ensures !q.employeeId.Has? ==> r == JsxText(q.fullName) + " ()"
    ensures q.fullName.Has? && q.employeeId.Has? ==> r == q.fullName.value + " (" + q.employeeId.value + ")"
    ensures !q.fullName.Has? && q.employeeId.Has? ==> r == " (" + q.employeeId.value + ")"
  {
    JsxText(q.fullName) + " (" + JsxText(q.employeeId) + ")"
  }

  /** The rows of the "Access Requests" section, in request order. */
  function RequestRows(t: Ticket, requests: seq<AccessRequest>, role: string): (r: seq<RequestRow>)
    ensures |r| == |requests|
    ensures forall i :: 0 <= i < |r| ==>
              && r[i].userId == requests[i].userId
              && r[i].caption == RequestCaption(requests[i])
              && (r[i].assign.Some? <==> IsManager(role))
              && (r[i].assign.Some? ==> r[i].assign.value == AssignCall(t.id, requests[i].userId))
  {
    if requests == [] then []
    else
      var q := requests[0];
      [RequestRow(q.userId, RequestCaption(q),
                  if IsManager(role) then Some(AssignCall(t.id, q.userId)) else None)]
      + RequestRows(t, requests[1..], role)
  }

  /** The section is rendered only when `accessRequests?.length > 0`. */
  function RequestSection(t: Ticket, role: string): (r: Option<seq<RequestRow>>)
    ensures r.Some? <==> t.accessRequests.Has? && |t.accessRequests.value| > 0
    ensures r.Some? ==> |r.value| == |t.accessRequests.value|
    ensures r.Some? && !IsManager(role) ==> forall i :: 0 <= i < |r.value| ==> r.value[i].assign.None?
  {
    match t.accessRequests
    case Has(qs) => if |qs| > 0 then Some(RequestRows(t, qs, role)) else None
    case _ => None
  }

  /** "Assign Manually": an open ticket with no engineer, whose request list
      exists and is empty, seen by a manager. A missing list hides it,
      because `undefined === 0` is false. */
  predicate ManualAssignShown(t: Ticket, role: string) {
    && t.status == "Open"
    && !t.assignedEngineer.Has?
    && t.accessRequests == Has([])
    && IsManager(role)
  }

  /** The manual button and the request section never appear together:
      the button needs an empty list and the section a non-empty one. */
  lemma ManualAssignExcludesRequests(t: Ticket, role: string)
    ensures ManualAssignShown(t, role) ==> RequestSection(t, role).None?
    ensures t.accessRequests.Has? && |t.accessRequests.value| > 0 ==> !ManualAssignShown(t, role)
  {
  }

  /** The interaction log, newest first, from a reversed copy; a missing
      log renders no entries. */
  function InteractionLog(t: Ticket): (r: seq<Interaction>)
    ensures !t.interactions.Has? ==> r == []
    ensures t.interactions.Has? ==>
              && |r| == |t.interactions.value|
              && forall i :: 0 <= i < |r| ==> r[i] == t.interactions.value[|r| - 1 - i]
  {
    match t.interactions
    case Has(log) => Reverse(log)
    case _ => []
  }

  /** Reversing a copy loses nothing: reading the displayed log backwards
      gives the stored log. */
  lemma InteractionLogKeepsStoredOrder(t: Ticket)
    requires t.interactions.Has?
    ensures Reverse(InteractionLog(t)) == t.interactions.value
  {
    ReverseInvolutive(t.interactions.value);
  }

  /** What the dialog shows for a ticket. */
  datatype View = View(
    canPay: bool,
    amount: string,
    paymentStatus: string,
    expertise: string,
    assignedTo: Option<string>,
    requests: Option<seq<RequestRow>>,
    log: seq<Interaction>,
    manualAssign: bool)

  /** `if (!ticket) return null`, otherwise the full view. */
  function Render(ticket: Option<Ticket>, role: string): (r: Option<View>)
    ensures ticket.None? <==> r.None?
    ensures ticket.Some? ==>
              && r.value.canPay == CanPay(ticket.value)
              && r.value.manualAssign == ManualAssignShown(ticket.value, role)
              && r.value.requests == RequestSection(ticket.value, role)
              && r.value.log == InteractionLog(ticket.value)
              && r.value.paymentStatus == DisplaySlot(ticket.value.paymentStatus)
              && r.value.amount == AmountValue(ticket.value)
              && r.value.expertise == ExpertiseValue(ticket.value)
              && r.value.assignedTo == AssignedTo(ticket.value)
  {
    match ticket
    case None => None
    case Some(t) =>
      Some(View(CanPay(t), AmountValue(t), DisplaySlot(t.paymentStatus), ExpertiseValue(t),
                AssignedTo(t), RequestSection(t, role), InteractionLog(t), ManualAssignShown(t, role)))
  }
}

=== FILE: tickets.dfy ===
/** The ticket record as the dashboard components read it. Every field
    that the server may omit or send as `null` is a `Maybe`. */
module Tickets {
  import opened Js

  /** `assignedEngineer`: the engineer's id and the state of the assignment. */
  datatype Engineer = Engineer(engineerId: Maybe<string>, assignmentStatus: Maybe<string>)

  /** One entry of the ticket's interaction log. */
  datatype Interaction = Interaction(timestamp: Maybe<string>, actor: Maybe<string>, event: Maybe<string>)

  /** One entry of `assignedPersonnel`. */
  datatype Personnel = Personnel(name: Maybe<string>, assignmentStatus: Maybe<string>)

  /** One entry of `accessRequests`: the populated requesting user. */
  datatype AccessRequest = AccessRequest(userId: Maybe<string>, fullName: Maybe<string>, employeeId: Maybe<string>)

  datatype Ticket = Ticket(
    id: Maybe<string>,
    ticketId: Maybe<string>,
    status: string,
    paymentStatus: Maybe<string>,
    amount: Maybe<string>,
    assignedEngineer: Maybe<Engineer>,
    accessRequests: Maybe<seq<AccessRequest>>,
    interactions: Maybe<seq<Interaction>>,
    assignedPersonnel: Maybe<seq<Personnel>>,
    expertiseRequired: seq<string>,
    createdAt: Maybe<string>)

  /** The three statuses the dashboard offers. */
  const Statuses: seq<string> := ["Open", "In Progress", "Closed"]

  /** The roles that manage tickets on behalf of the platform. */
  predicate IsManager(role: string) {
    role == "Admin" || role == "NetCovet Manager"
  }
}

=== FILE: user_creation_form.dfy ===
/** The user form (src/components/UserCreationForm.jsx): its fields, the
    generic change handler, the role change that clears the company, and
    the company field that only a company admin sees. */
module UserCreationForm {

  datatype UserForm = UserForm(fullName: string, email: string, password: string, role: string, companyId: string)

  /** The keys of `formData`. */
  datatype Field = FullName | Email | Password | Role | CompanyId

  function Get(f: UserForm, k: Field): string {
    match k
    case FullName => f.fullName
    case Email => f.email
    case Password => f.password
    case Role => f.role
    case CompanyId => f.companyId
  }

  function InitialForm(): (f: UserForm)
    ensures forall k :: Get(f, k) == ""
  {
    UserForm("", "", "", "", "")
  }

  /** `handleChange`: `{ ...formData, [name]: value }`. */
  function HandleChange(f: UserForm, k: Field, value: string): (r: UserForm)
    ensures Get(r, k) == value
    ensures forall j :: j != k ==> Get(r, j) == Get(f, j)
  {
    match k
    case FullName => f.(fullName := value)
    case Email => f.(email := value)
    case Password => f.(password := value)
    case Role => f.(role := value)
    case CompanyId => f.(companyId := value)
  }

  /** `handleRoleChange`: the role is set; the company survives only for a
      company admin. */
  function HandleRoleChange(f: UserForm, value: string): (r: UserForm)
    ensures r.role == value
    ensures value == "Company Admin" ==> r.companyId == f.companyId
    ensures value != "Company Admin" ==> r.companyId == ""
    ensures r.fullName == f.fullName && r.email == f.email && r.password == f.password
  {
    f.(role := value, companyId := if value == "Company Admin" then f.companyId else "")
  }

  /** The company select is rendered only for a company admin. */
  predicate CompanyFieldShown(f: UserForm) {
    f.role == "Company Admin"
  }

  /** The company select's handler. */
  function SelectCompany(f: UserForm, id: string): (r: UserForm)
    ensures r == f.(companyId := id)
  {
    f.(companyId := id)
  }

  /** A form whose company field is hidden sends no company. */
  predicate NoHiddenCompany(f: UserForm) {
    !CompanyFieldShown(f) ==> f.companyId == ""
  }

  /** Every action a user can take through the rendered inputs keeps a
      hidden company empty: the three text inputs, the role select, and
      the company select while it is shown. */
  lemma NoHiddenCompanyInvariant(f: UserForm, k: Field, value: string)
    requires NoHiddenCompany(f)
    ensures k in {FullName, Email, Password} ==> NoHiddenCompany(HandleChange(f, k, value))
    ensures NoHiddenCompany(HandleRoleChange(f, value))
    ensures CompanyFieldShown(f) ==> NoHiddenCompany(SelectCompany(f, value))
  {
  }

  lemma InitialFormHasNoHiddenCompany()
    ensures NoHiddenCompany(InitialForm())
  {
  }

  /** Switching away from company admin and back loses the company. */
  lemma RoleRoundTripClearsCompany(f: UserForm, other: string)
    requires other != "Company Admin"
    ensures HandleRoleChange(HandleRoleChange(f, other), "Company Admin").companyId == ""
  {
  }
}
